=== FILE: README.md ===
# Noux child processes in Dafny

A functional model of the process core of Noux, the Unix-like runtime of
Genode, as written in `ports/src/noux/child.h`:

- the process-id allocator (`Pid_allocator`);
- the process tree (`Family_member`): child lists, the exit status, and the
  wait4 semaphore. The whole tree is one map from each member's object
  identity to its record (the pid is only a field: after `execve` two
  Child objects share a pid), and each lock-guarded body is one atomic step;
- the per-child bundle of RAM, CPU and RM sessions (`Child::Resources`) and
  its registration with the resources entrypoint;
- file-descriptor lookup and inheritance (`_lookup_channel`,
  `_assign_io_channels_to`);
- service resolution for a child's session requests
  (`resolve_session_request`);
- the size of the syscall buffer (`SYSIO_DS_SIZE`);
- the `Child` constructor and destructor, the name buffer, and the
  replacement of a child by `execve` (`Child_execve_cleanup_dispatcher`);
- `exit`, and the runtime's reaction to the exit signal
  (`Child_exit_dispatcher::dispatch`).

Modules:

| module | file | contents |
|---|---|---|
| `Wrappers` | `wrappers.dfy` | `Option` and `Result` |
| `Refs` | `refs.dfy` | object identities |
| `Pids` | `pids.dfy` | the pid allocator |
| `Family` | `family.dfy` | the process tree, `poll4` and `wait4` |
| `ChildResources` | `resources.dfy` | the resource bundle and the resources entrypoint |
| `Descriptors` | `descriptors.dfy` | descriptor tables |
| `SessionPolicy` | `policy.dfy` | session routing |
| `Sysio` | `sysio.dfy` | page rounding of the syscall buffer |
| `NouxChild` | `nouxchild.dfy` | construction, destruction and exit of a child |

### How the model reads the code

- **wait4.** `wait4` is a method that receives the exits of other threads as
  a finite schedule. The schedule is delivered while the waiter is blocked in
  `down`. Every exit is a single atomic step, so any interleaving can be
  reordered into this one, except for how many pending `up`s remain on the
  waiter's own semaphore: an `up` left over from an earlier `wait4` that
  returned without a `down` (child.h:200-202) is used up here before the
  schedule starts, so the contract bounds the waiter's final count only from
  above. The outcome is either `Woken` with a child, or
  `StillWaiting` when the schedule runs out and the semaphore is at zero. The
  main property is that no wake-up is missed: an exit of any listed child
  ends the wait.
- **Insert position.** Where Genode's `List::insert` puts a new element is
  library behaviour. The position is therefore a parameter, and the
  properties are stated on multisets of child lists, so they do not depend
  on it.
- **Lifetime of session objects.** The resources entrypoint is modelled by
  the set of objects it serves and a log of events. C++ destroys members
  after the destructor body runs, in reverse declaration order (rm, cpu,
  ram). The model frees them in that order and proves that none is freed
  while the entrypoint still serves it.

### Behaviour worth noting

- `resolve_session_request` tries the ROM policies in the order args, env,
  binary (child.h:454-456).
- `~Resources` dissolves ram, rm, cpu (child.h:272-274). That is the order
  in which `Resources` registered them, not the reverse.
- `wakeup_parent` has no guard against a second call. A second call
  overwrites the exit status and wakes the parent a second time
  (`Family.SecondWakeupOverwritesStatus`).
- The resource bundle and `dataspace_from_file` receive the full name
  (child.h:390, 395). The name buffer `_name` has 64 bytes and is filled by
  Genode's `strncpy` (child.h:224-225, 410), which copies at most 63
  characters and always writes a terminator. The labeling policy reads that
  buffer (child.h:399), so a longer name reaches it cut to 63 characters.
- Destroying a Child object ends its Family_member (child.h:144, 413-423).
  Nothing in the destructor takes it out of its parent's list or
  re-parents its children. A child that outlives its parent keeps a
  dangling `_parent`, which its own `wakeup_parent` would then use
  (child.h:177-178; `Family.DestroyedParentDangles`).

## Model

| member | source | states |
|---|---|---|
| Pids.NewAllocator | ports/src/noux/child.h:53 | a new allocator's counter starts at zero |
| Pids.Alloc | ports/src/noux/child.h:55-59 | the counter after `alloc` is above the pid it returned |
| Pids.AllocIsFresh | ports/src/noux/child.h:55-59 | the returned pid was not issued before, is issued afterwards, and differs from every earlier pid |
| Pids.AllocMany | ports/src/noux/child.h:53-59 | n calls return consecutive, strictly increasing, previously unissued pids, and advance the counter by n |
| Pids.FreshAllocatorIssuesFromZero | ports/src/noux/child.h:53-59 | from a new allocator, n calls hand out exactly the pids 0 to n-1 |
| Family.AddMember | ports/src/noux/child.h:140-142 | a new member has the given pid and parent, no children, is not exited, has status 0 and a zero semaphore; nothing else changes |
| Family.AddMemberPreservesValid | ports/src/noux/child.h:140-142 | adding a member whose parent is alive keeps the tree invariant |
| Family.AtMostOneChildList | ports/src/noux/child.h:121-131 | in a valid tree, a member appears in at most one child list |
| Family.DestroyMember | ports/src/noux/child.h:144 | destroying a member removes exactly that member; every other record is unchanged, links included |
| Family.DestroyMemberValid | ports/src/noux/child.h:125-148 | destroying a member of a valid tree keeps it valid iff no other member lists it and none names it as parent |
| Family.DestroyedParentDangles | ports/src/noux/child.h:173-178 | a child of a destroyed member stays in the tree with a parent link that points at no member |
| Family.Insert | ports/src/noux/child.h:121-159 | for a member not yet in any list (its list link is a field of the member), the child list gains exactly one occurrence of it; every other member, and the rest of `self`, is unchanged |
| Family.InsertPreservesValid | ports/src/noux/child.h:155-159 | inserting a live member that names `self` as parent and is in no list keeps the tree invariant |
| Family.RemoveFirst | ports/src/noux/child.h:164-168 | list removal takes away one occurrence of the element, and leaves a list without it unchanged |
| Family.RemoveFirstNoDuplicates | ports/src/noux/child.h:164-168 | after removal from a list without duplicates, the list still has none and no longer contains the element |
| Family.Remove | ports/src/noux/child.h:164-168 | `self`'s list loses one occurrence of the member; removing an absent member changes nothing; nothing else changes |
| Family.RemovePreservesValid | ports/src/noux/child.h:164-168 | removal keeps the tree invariant, and the removed member is gone from the list |
| Family.Up | ports/src/noux/child.h:133-136 | `_wakeup_wait4` raises exactly that member's semaphore by one |
| Family.WakeupParent | ports/src/noux/child.h:173-179 | the caller is marked exited with the given status; only its parent's semaphore goes up, by one; links and lists are unchanged |
| Family.WakeupParentPreservesValid | ports/src/noux/child.h:173-179 | recording an exit keeps the tree invariant |
| Family.SecondWakeupOverwritesStatus | ports/src/noux/child.h:173-179 | a second `wakeup_parent` wins on the status and wakes the parent twice |
| Family.FirstExitedIndex | ports/src/noux/child.h:181-192 | the index of the first exited member in list order: every earlier member has not exited |
| Family.FirstExited | ports/src/noux/child.h:181-192 | reference for `poll4`: the result is none iff no listed member has exited; otherwise it is a listed member that has exited |
| Family.Poll4 | ports/src/noux/child.h:181-192 | the list scan returns exactly the first exited member in list order, or none |
| Family.ExitsInMeans | ports/src/noux/child.h:173-179 | a member is marked by a stretch of exits iff one of them is its own |
| Family.LastStatusIsLatest | ports/src/noux/child.h:173-176 | after a stretch of exits a member carries the status of its latest exit there |
| Family.WakesInCounts | ports/src/noux/child.h:177-178 | an exit of a child of `q` in a stretch raises `q`'s semaphore at least once |
| Family.DeliveredSplit | ports/src/noux/child.h:173-179 | exited flags, statuses and semaphore counts of two consecutive stretches of exits compose into those of the whole |
| Family.WakesInSameShape | ports/src/noux/child.h:177-178 | which semaphore an exit raises depends only on the parent links |
| Family.DeliverOne | ports/src/noux/child.h:173-179 | one more `wakeup_parent` extends the delivered stretch by that exit |
| Family.DeliveredTrans | ports/src/noux/child.h:197-206 | delivering two consecutive stretches is delivering their union |
| Family.DownKeepsDelivered | ports/src/noux/child.h:204 | a `down` on the waiter's own semaphore keeps every recorded exit and every other semaphore |
| Family.BlockStep | ports/src/noux/child.h:173-179 | one exit delivered while `wait4` blocks extends the delivered stretch and raises the waiter's semaphore by exactly the exits of its children |
| Family.ShapeKeepsValid | ports/src/noux/child.h:125-131 | the tree invariant depends only on members, links and lists |
| Family.ShapeKeepsExitsLive | ports/src/noux/child.h:125-131 | scheduled exits stay live in a tree with the same members and links |
| Family.BlockedExits | ports/src/noux/child.h:197-206 | every member that exits while `wait4` blocks is marked exited, and an exit of a listed child makes the waiter's semaphore positive |
| Family.ValidOwnsItsList | ports/src/noux/child.h:125-131 | in a valid tree every member's list holds live members that name it as parent |
| Family.ShapeKeepsList | ports/src/noux/child.h:125-131 | that a member's list holds live members naming it as parent depends only on members, links and lists |
| Family.DownStep | ports/src/noux/child.h:204 | a `down` that does not block keeps the tree's shape, its validity and every exited flag |
| Family.BlockInDown | ports/src/noux/child.h:197-206 | needing nothing of the tree beyond live exiting members and their parents, a blocked `down` returns once the semaphore is positive or the schedule is used up, and at once when it is already positive; the tree afterwards is the one before with the delivered exits recorded: exited flags, the status of each member's last exit, and one `up` per exit on the exiting member's parent; a valid tree stays valid |
| Family.Wait4 | ports/src/noux/child.h:197-206 | needing only that the waiter's own list holds live members that name it as parent (links elsewhere may dangle), wait4 returns the member `poll4` finds at that moment; it returns at once when a child had already exited; the exit of any listed child wakes it (no missed wake-up); a valid tree stays valid; the tree is the initial one with the delivered exits recorded, statuses included, and only the waiter's semaphore lowered by its downs |
| Family.RemoveFirstKeepsOthers | ports/src/noux/child.h:164-168 | removing one member keeps every other member in the list |
| Family.OnlyExitedIsFirst | ports/src/noux/child.h:181-192 | when exactly one listed member has exited, `poll4`'s scan returns it |
| Family.ReapTwoExitedChildren | ports/src/noux/child.h:164-206 | with two exited children, the first poll returns one of them; after the parent removes it, the next poll returns the other |
| ChildResources.ConstructAll | ports/src/noux/child.h:257-263 | constructing members logs them in order and does not register them |
| ChildResources.ManageAll | ports/src/noux/child.h:265-267 | `ep.manage` adds the objects to those the entrypoint serves, and logs them in call order |
| ChildResources.DissolveAll | ports/src/noux/child.h:272-274 | `ep.dissolve` takes the objects out of those the entrypoint serves, and logs them in call order |
| ChildResources.ReleaseAll | ports/src/noux/child.h:257-259 | destroying members succeeds iff the entrypoint serves none of them |
| ChildResources.NewResources | ports/src/noux/child.h:261-268 | after construction the entrypoint also serves the child's RAM, CPU and RM objects; the log gains the construction of ram, cpu, rm and then the registration of ram, rm, cpu; `forked` reaches the bundle's CPU session |
| ChildResources.DestroyResources | ports/src/noux/child.h:270-275 | destruction never frees an object the entrypoint still serves, and afterwards the entrypoint serves none of the three; the log gains the dissolving of ram, rm, cpu and then the release of rm, cpu, ram |
| ChildResources.ReleaseBeforeDissolveFails | ports/src/noux/child.h:270-275 | freeing an object the entrypoint still serves is the failure that dissolving first avoids |
| ChildResources.ResourcesRoundTrip | ports/src/noux/child.h:261-275 | construction followed by destruction leaves the entrypoint serving what it served before |
| ChildResources.KindsOfAppend | ports/src/noux/child.h:265-274 | the kinds recorded in a concatenated log are those of the two parts, in order |
| ChildResources.KindsOfStamp | ports/src/noux/child.h:265-274 | taking objects through one step records their kinds in call order under that step and under no other |
| ChildResources.RegistrationKinds | ports/src/noux/child.h:265-274 | registering, or dissolving, the bundle in call order records ram, rm, cpu under that step and nothing under the others |
| ChildResources.LifetimeKinds | ports/src/noux/child.h:261-275 | a whole bundle lifetime appended to a log adds ram, rm, cpu, in that order, to the managed kinds and to the dissolved kinds |
| ChildResources.DissolveFollowsRegistrationOrder | ports/src/noux/child.h:261-275 | the bundle registers ram, rm, cpu and dissolves them in that same order |
| Descriptors.LookupChannel | ports/src/noux/child.h:336-346 | the lookup succeeds iff the descriptor is in use and then yields its channel; otherwise it fails with `Invalid_fd` |
| Descriptors.AssignIoChannelsTo | ports/src/noux/child.h:353-358 | every descriptor below the limit that the parent uses is copied, overwriting the child's entry; every other descriptor keeps the child's entry |
| Descriptors.LookupAfterInheritance | ports/src/noux/child.h:336-358 | after inheritance, a lookup finds the parent's channel for an inherited descriptor and the child's elsewhere; it fails iff neither had one |
| SessionPolicy.ResolveSessionRequest | ports/src/noux/child.h:448-472 | any ROM match yields that ROM service; the local Noux and RM services answer only their own names; the registry is consulted only when nothing local matches; null iff nothing matches anywhere |
| SessionPolicy.FirstAnswerIndex | ports/src/noux/child.h:448-472 | the first step that answers: every earlier step did not |
| SessionPolicy.FirstAnswer | ports/src/noux/child.h:448-472 | first-match resolution: none iff no step answers, otherwise the answer of some step |
| SessionPolicy.ResolveIsFirstMatch | ports/src/noux/child.h:448-472 | the chain of `if`s equals first-match resolution over args, env, binary, Noux, RM, registry |
| Sysio.ClearLowBitsIsMultiple | ports/src/noux/child.h:305-306 | masking off the k low bits leaves a multiple of 2^k |
| Sysio.ClearLowBitsRoundsDown | ports/src/noux/child.h:305-306 | masking off the k low bits rounds down by less than 2^k |
| Sysio.PageSizeIsPowerOfShift | ports/src/noux/child.h:305 | PAGE_SIZE is 2^12, so PAGE_MASK clears 12 bits |
| Sysio.SysioDsSize | ports/src/noux/child.h:305-306 | the buffer size is a whole number of pages, at least sizeof(Sysio) and less than one page above it |
| Sysio.SysioDsSizeIsLeast | ports/src/noux/child.h:305-306 | no smaller whole number of pages holds the structure |
| NouxChild.NameBuffer | ports/src/noux/child.h:224-225 | the name buffer holds a prefix of the name that leaves room for the terminator; it is the whole name iff the name is shorter than 64 characters, and 63 characters otherwise |
| NouxChild.NewChild | ports/src/noux/child.h:365-411 | the new object joins the tree with the given pid (which need not be fresh) under its parent, without being listed by it; its bundle is owned by the object and labelled with the full name; its CPU session is never flagged as forked; a forked child has no binary, any other gets the file of the full name; the args, env and binary ROMs hand out their dataspaces; the name buffer is the name cut to its size; the syscall buffer is page-rounded; the entrypoint serves the child's sessions |
| NouxChild.ForkedAffectsOnlyBinary | ports/src/noux/child.h:386-402 | a forked and an unforked child differ only in the binary dataspace and in what the binary ROM hands out |
| NouxChild.DestroyChild | ports/src/noux/child.h:413-423 | destruction succeeds; the child's Family_member leaves the tree and every other record stays as it was; the entrypoint no longer serves the child's sessions |
| NouxChild.DestroyChildValid | ports/src/noux/child.h:413-423 | destroying a child keeps a valid tree valid iff no member lists it and no member names it as parent |
| NouxChild.ChildRoundTrip | ports/src/noux/child.h:365-423 | constructing and then destroying a new child object leaves the tree and the entrypoint's sessions as before |
| NouxChild.ExecveReplacesChild | ports/src/noux/child.h:100-118 | after a new Child object takes over the pid and parent of an old one and the cleanup dispatcher destroys the old one, the new one is in the tree with that pid and parent, the entrypoint serves all of its sessions and none of the old one's |
| NouxChild.SpawnKeepsTreeValid | ports/src/noux/child.h:140-159 | creating a child of a live member: the pid from `alloc` (child.h:55-59) differs from the pid of every live member; after the Family_member constructor and the parent's `insert`, the tree is valid and the parent lists the child |
| NouxChild.Exit | ports/src/noux/child.h:480-489 | the exit value is recorded; the exit signal is submitted iff the process has no parent |
| NouxChild.ExitNotifiesExactlyOnce | ports/src/noux/child.h:480-489 | an exit notifies exactly once: either one `up` on the parent's semaphore, or, for the root, the exit signal with no semaphore moving |
| NouxChild.ExitPreservesValid | ports/src/noux/child.h:480-489 | an exit keeps the tree invariant |
| NouxChild.DispatchExit | ports/src/noux/child.h:88-96 | the dispatcher stops the main loop iff the exited child is the init process |
| NouxChild.MainLoopEndsOnlyWithInit | ports/src/noux/child.h:88-96 | an exit ends the main loop iff the exiting process is the parentless init process |

## Left out

- Locking and thread scheduling: each lock-guarded body is one atomic step. `wakeup_parent` does not take the parent's lock; the model still treats it as one step.
- Family.Wait4: receives the other threads' exits only while it is blocked, and only as a finite schedule. When the schedule ends first, the call reports that it is still blocked; it makes no claim about later progress.
- Pids.Alloc: uses an unbounded integer; the overflow of the signed C++ `int` counter after 2^31 - 1 allocations, which is undefined behaviour, is not modelled.
- Sysio.SysioDsSize: `sizeof(Sysio) + PAGE_SIZE - 1` is an unbounded integer here; `size_t` overflow is not modelled, since the structure is far smaller than that.
- The layout of `Sysio`: its size is a parameter.
- Signal plumbing: the signal receiver, the `manage` and `dissolve` calls of the two dispatchers in the constructor and `~Child`, and the delivery of a submitted signal. The model only records whether `exit` submits the signal.
- The rest of `execve`: creating the new child, swapping it for the old one in the parent's list, and submitting the cleanup signal happen in the runtime's main.cc, which is not part of this model. `NouxChild.ExecveReplacesChild` covers the new child's construction and the old one's destruction.
- NouxChild.DestroyChild: the Child destructor's `_entrypoint.dissolve(this)` and the dissolving of the two signal dispatchers are not modelled (see below); the model covers the resource bundle and the Family_member.
- Family.WakeupParent and NouxChild.Exit: both require the parent of the exiting member to be alive. When the parent object has already been destroyed, the source dereferences a dangling `_parent` (undefined behaviour); the model gives that case no meaning, and `Family.DestroyedParentDangles` shows the state in which it arises.
- NouxChild.NameBuffer: the name is a sequence of characters, each standing for one byte of a C string without NUL bytes; a name with multi-byte (non-ASCII) characters would be cut at a different character, and a name holding `'\0'` has no C counterpart. Genode's `strncpy` (util/string.h, which is not part of this model) is taken to copy at most `size - 1` characters and always terminate, as its documentation promises; C's `strncpy` would leave a 64-character name unterminated.
- `Genode::Child` creation, `start()` (entrypoint activation), `start_forked_main_thread` (`rm.poke`, `start_main_thread`), and the accessors `ram()`, `rm()`, `ds_registry()`, `name()` and `ref_ram_session()`: they only hand out platform capabilities.
- `filter_session_args`: it delegates to Genode's labeling policy library.
- The internals of Genode's `Child_policy_provide_rom_file` match and of `Service_registry::find`: both are function parameters (`romMatch`, `parentFind`).
- `Vfs::dataspace_from_file`, the args and env dataspaces, and `is_init_process`: all are parameters.
- `MAX_FILE_DESCRIPTORS`, `io_channel_by_fd`, `fd_in_use` and `add_io_channel`: these come from the file-descriptor registry, which is not part of this model. The descriptor table is a map, and the limit is a parameter.
- The service names "Noux" and "RM": these come from the session interface headers, which are not part of this model. The model uses them as constants.
- The Noux session RPC interface (`syscall()` and the Sysio contents): it is outside the process-management core.
- `~Child`'s `_entrypoint.dissolve(this)` and the `_binary_ds` that the destructor leaves unreleased: these concern the child's own entrypoint. Only the resources entrypoint is modelled.
- Logging (`PINF`, `PDBG`, `_args.dump()`): it does not change state.

=== FILE: descriptors.dfy ===
/**
 * The file-descriptor side of a Noux child: `_lookup_channel` and
 * `_assign_io_channels_to` in noux/child.h. The descriptor table of a child
 * (its File_descriptor_registry base) maps descriptors in use to I/O
 * channels; channels are owned elsewhere, so a channel is an opaque id here.
 */
module Descriptors {
  import opened Wrappers

  type Fd = int

  /** An I/O channel, by identity only. */
  type ChannelId = nat

  /** The descriptors in use and the channel each refers to. */
  type FdTable = map<Fd, ChannelId>

  /** The exception `_lookup_channel` throws. */
  datatype FdError = InvalidFd

  /**
   * `_lookup_channel`: the channel registered for `fd`, or `InvalidFd` when
   * no channel is registered for it.
   */
  function LookupChannel(table: FdTable, fd: Fd): (r: Result<ChannelId, FdError>)
    ensures r.Success? <==> fd in table
    ensures r.Success? ==> r.value == table[fd]
    ensures r.Failure? ==> r.error == InvalidFd
  {
    if fd in table then Success(table[fd]) else Failure(InvalidFd)
  }

  /**
   * `_assign_io_channels_to`: for every descriptor below `maxFds` that the
   * parent uses, register the parent's channel under the same descriptor in
   * the child, overwriting what the child had there. Descriptors the parent
   * does not use, and those outside the range, keep the child's entry.
   */
  method AssignIoChannelsTo(parent: FdTable, child: FdTable, maxFds: int) returns (r: FdTable)
    ensures forall fd :: 0 <= fd < maxFds && fd in parent ==> fd in r && r[fd] == parent[fd]
    ensures forall fd :: !(0 <= fd < maxFds && fd in parent) ==>
      (fd in r <==> fd in child) && (fd in child ==> r[fd] == child[fd])
    ensures r == Inherited(parent, child, maxFds)
  {
    r := child;
    var fd := 0;
    while fd < maxFds
      invariant fd >= 0
      invariant forall k :: 0 <= k < fd && k < maxFds && k in parent ==> k in r && r[k] == parent[k]
      invariant forall k :: !(0 <= k < fd && k < maxFds && k in parent) ==>
        (k in r <==> k in child) && (k in child ==> r[k] == child[k])
    {
      if fd in parent {
        r := r[fd := parent[fd]];
      }
      fd := fd + 1;
    }
  }

  /** The child's table after inheritance: the parent's in-range entries laid over the child's. */
  function Inherited(parent: FdTable, child: FdTable, maxFds: int): FdTable
  {
    child + map fd | fd in parent && 0 <= fd < maxFds :: parent[fd]
  }

  /**
   * After inheritance a lookup in the child finds the parent's channel for
   * every descriptor the parent uses below `maxFds`, finds the child's own
   * channel elsewhere, and fails with `InvalidFd` exactly where both had
   * nothing.
   */
  lemma LookupAfterInheritance(parent: FdTable, child: FdTable, maxFds: int, fd: Fd)
    ensures 0 <= fd < maxFds && fd in parent ==>
      LookupChannel(Inherited(parent, child, maxFds), fd) == LookupChannel(parent, fd)
    ensures !(0 <= fd < maxFds && fd in parent) ==>
      LookupChannel(Inherited(parent, child, maxFds), fd) == LookupChannel(child, fd)
    ensures LookupChannel(Inherited(parent, child, maxFds), fd) == Failure(InvalidFd) <==>
      !(0 <= fd < maxFds && fd in parent) && fd !in child
  {
  }
}

=== FILE: family.dfy ===
/**
 * The process tree of the Noux runtime (class Family_member in
 * noux/child.h). The whole tree is one immutable map from each member's
 * identity (its address: parent links and child lists hold pointers) to its
 * record; every lock-guarded body of the source is one atomic transition, and
 * the wait4 semaphore is a counter of pending wake-ups.
 */
module Family {
  import opened Wrappers
  import opened Pids
  import opened Refs

  /**
   * One Family_member: its pid, parent link (absent for the root), the child
   * list, the exited flag, the exit status and the count of the wait4
   * semaphore.
   */
  datatype Member = Member(
    pid: Pid,
    parent: Option<Ref>,
    children: seq<Ref>,
    hasExited: bool,
    exitStatus: int,
    wakeups: nat)

  type Tree = map<Ref, Member>

  /** An exit of `member` with `status`, performed by another thread. */
  datatype ExitEvent = ExitEvent(member: Ref, status: int)

  /**
   * The outcome of wait4 in the model: woken with an exited child, or still
   * blocked in the semaphore when the given schedule of exits has run out.
   */
  datatype WaitOutcome =
    | Woken(child: Ref, tree: Tree, delivered: nat)
    | StillWaiting(tree: Tree, delivered: nat)

  /** No member occurs twice in `s`. */
  ghost predicate NoDuplicates(s: seq<Ref>)
  {
    forall x :: multiset(s)[x] <= 1
  }

  /** `p` is alive and so is the member its parent pointer refers to. */
  predicate ParentLive(t: Tree, p: Ref)
  {
    p in t && (t[p].parent.Some? ==> t[p].parent.value in t)
  }

  /** Every entry of `kids` refers to a live member. */
  predicate AllLive(t: Tree, kids: seq<Ref>)
  {
    forall i :: 0 <= i < |kids| ==> kids[i] in t
  }

  /** `p` is alive and so is every member of its child list. */
  predicate ChildrenLive(t: Tree, p: Ref)
  {
    p in t && AllLive(t, t[p].children)
  }

  /**
   * The tree invariant: every pointer refers to a live member, a member in
   * `p`'s child list has `p` as its parent (so it is in at most one child
   * list), and no child list holds a member twice.
   */
  ghost predicate Valid(t: Tree)
  {
    && (forall p :: p in t ==> ParentLive(t, p) && ChildrenLive(t, p))
    && (forall p, c {:trigger c in t[p].children} :: p in t && c in t[p].children ==> c in t && t[c].parent == Some(p))
    && (forall p :: p in t ==> NoDuplicates(t[p].children))
  }

  /** In a valid tree a member is in the child list of at most one member. */
  lemma AtMostOneChildList(t: Tree, p: Ref, q: Ref, c: Ref)
    requires Valid(t) && p in t && q in t
    requires c in t[p].children && c in t[q].children
    ensures p == q
  {
    assert t[c].parent == Some(p) && t[c].parent == Some(q);
  }

  /**
   * The Family_member constructor: the new object `self` records its pid and
   * parent, has no children, has not exited and has status 0.
   */
  function AddMember(t: Tree, self: Ref, pid: Pid, parent: Option<Ref>): (r: Tree)
    requires self !in t
    ensures r.Keys == t.Keys + {self}
    ensures r[self].pid == pid && r[self].parent == parent && r[self].children == []
    ensures !r[self].hasExited && r[self].exitStatus == 0 && r[self].wakeups == 0
    ensures forall p :: p in t ==> r[p] == t[p]
  {
    t[self := Member(pid, parent, [], false, 0, 0)]
  }

  /** A new member whose parent is alive keeps the tree valid. */
  lemma AddMemberPreservesValid(t: Tree, self: Ref, pid: Pid, parent: Option<Ref>)
    requires Valid(t) && self !in t
    requires parent.Some? ==> parent.value in t
    ensures Valid(AddMember(t, self, pid, parent))
  {
  }

  /**
   * The end of a Family_member, by the destructor of the Child it is part
   * of: the object `self` is gone and nothing else changes. A pointer to it
   * that remains in a child list or in a parent link now refers to a dead
   * object.
   */
  function DestroyMember(t: Tree, self: Ref): (r: Tree)
    ensures r.Keys == t.Keys - {self}
    ensures forall p :: p in r ==> r[p] == t[p]
  {
    t - {self}
  }

  /**
   * Destroying a member keeps a valid tree valid exactly when no other
   * member lists it as a child and no other member has it as parent.
   */
  lemma DestroyMemberValid(t: Tree, self: Ref)
    requires Valid(t)
    ensures Valid(DestroyMember(t, self)) <==>
      && (forall p :: p in t && p != self ==> self !in t[p].children)
      && (forall c :: c in t && c != self ==> t[c].parent != Some(self))
  {
    var r := DestroyMember(t, self);
    if exists p :: p in t && p != self && self in t[p].children {
      var p :| p in t && p != self && self in t[p].children;
      assert p in r && self in r[p].children && self !in r;
    }
    if exists c :: c in t && c != self && t[c].parent == Some(self) {
      var c :| c in t && c != self && t[c].parent == Some(self);
      assert c in r && !ParentLive(r, c);
    }
  }

  /**
   * A child whose parent is destroyed before it keeps a parent pointer to a
   * dead object: its `wakeup_parent` has no live parent to wake.
   */
  lemma DestroyedParentDangles(t: Tree, self: Ref, c: Ref)
    requires c in t && c != self && t[c].parent == Some(self)
    ensures c in DestroyMember(t, self) && !ParentLive(DestroyMember(t, self), c)
  {
  }

  /**
   * `insert`: add `member` to `self`'s child list. Where Genode's list puts
   * it is not part of this model, so the position `at` is a parameter.
   * The list link is a field of the member itself (`Family_member` is a
   * `List<Family_member>::Element`), so a member can sit in one list only,
   * once: the member must not be listed anywhere yet, as it is not when the
   * parent inserts it at creation time.
   */
  function Insert(t: Tree, self: Ref, member: Ref, at: nat): (r: Tree)
    requires self in t && at <= |t[self].children|
    requires forall p :: p in t ==> member !in t[p].children
    ensures r.Keys == t.Keys
    ensures multiset(r[self].children) == multiset(t[self].children) + multiset{member}
    ensures r[self] == t[self].(children := r[self].children)
    ensures forall p :: p in t && p != self ==> r[p] == t[p]
  {
    var kids := t[self].children;
    assert kids == kids[..at] + kids[at..];
    t[self := t[self].(children := kids[..at] + [member] + kids[at..])]
  }

  /**
   * Inserting a live member that names `self` as parent and is in no child
   * list yet keeps the tree valid.
   */
  lemma InsertPreservesValid(t: Tree, self: Ref, member: Ref, at: nat)
    requires Valid(t) && self in t && at <= |t[self].children|
    requires member in t && t[member].parent == Some(self)
    requires forall p :: p in t ==> member !in t[p].children
    ensures Valid(Insert(t, self, member, at))
  {
    var r := Insert(t, self, member, at);
    var kids := r[self].children;
    forall c | c in kids
      ensures c in r && r[c].parent == Some(self)
    {
      assert c in multiset(kids);
      if c != member {
        assert c in multiset(t[self].children);
        assert c in t[self].children;
      }
    }
    NoDuplicatesInsert(t[self].children, member, at);
  }

  /** Inserting an element that is not there keeps a list free of duplicates. */
  lemma NoDuplicatesInsert(s: seq<Ref>, m: Ref, at: nat)
    requires NoDuplicates(s) && m !in s && at <= |s|
    ensures NoDuplicates(s[..at] + [m] + s[at..])
  {
    assert s == s[..at] + s[at..];
    assert multiset(s[..at] + [m] + s[at..]) == multiset(s) + multiset{m};
  }

  /**
   * Genode's list removal: drop the first occurrence of `m`; a list that does
   * not hold `m` is left as it is.
   */
  function RemoveFirst(s: seq<Ref>, m: Ref): (r: seq<Ref>)
    ensures multiset(r) == multiset(s) - multiset{m}
    ensures m !in s ==> r == s
  {
    if |s| == 0 then []
    else if s[0] == m then
      assert s == [m] + s[1..];
      s[1..]
    else
      assert s == [s[0]] + s[1..];
      [s[0]] + RemoveFirst(s[1..], m)
  }

  /** Removal from a list without duplicates leaves none and drops `m` entirely. */
  lemma RemoveFirstNoDuplicates(s: seq<Ref>, m: Ref)
    requires NoDuplicates(s)
    ensures NoDuplicates(RemoveFirst(s, m)) && m !in RemoveFirst(s, m)
  {
    if m in s {
      assert multiset(s)[m] >= 1;
      assert multiset(RemoveFirst(s, m))[m] == 0;
    }
  }

  /** `remove`: delete `member` from `self`'s child list. */
  function Remove(t: Tree, self: Ref, member: Ref): (r: Tree)
    requires self in t
    ensures r.Keys == t.Keys
    ensures multiset(r[self].children) == multiset(t[self].children) - multiset{member}
    ensures member !in t[self].children ==> r == t
    ensures r[self] == t[self].(children := r[self].children)
    ensures forall p :: p in t && p != self ==> r[p] == t[p]
  {
    t[self := t[self].(children := RemoveFirst(t[self].children, member))]
  }

  /** A list whose members all occur in a list of live members is live too. */
  lemma SubListLive(t: Tree, s: seq<Ref>, r: seq<Ref>)
    requires AllLive(t, s) && multiset(r) <= multiset(s)
    ensures AllLive(t, r)
    ensures forall c :: c in r ==> c in s
  {
    forall c | c in r
      ensures c in s
    {
      assert c in multiset(r);
    }
    forall i | 0 <= i < |r|
      ensures r[i] in t
    {
      var c := r[i];
      assert c in r;
      var j :| 0 <= j < |s| && s[j] == c;
    }
  }

  /** Removal keeps the tree valid, and the removed member is gone from the list. */
  lemma RemovePreservesValid(t: Tree, self: Ref, member: Ref)
    requires Valid(t) && self in t
    ensures Valid(Remove(t, self, member))
    ensures member !in Remove(t, self, member)[self].children
  {
    var r := Remove(t, self, member);
    var s := t[self].children;
    RemoveFirstNoDuplicates(s, member);
    SubListLive(t, s, r[self].children);
    assert ChildrenLive(r, self);
    assert forall p :: p in r && p != self ==> r[p] == t[p];
  }

  /** `_wakeup_wait4`: one `up` on `p`'s wait4 semaphore. */
  function Up(t: Tree, p: Ref): (r: Tree)
    requires p in t
    ensures r.Keys == t.Keys
    ensures r[p] == t[p].(wakeups := t[p].wakeups + 1)
    ensures forall q :: q in t && q != p ==> r[q] == t[q]
  {
    t[p := t[p].(wakeups := t[p].wakeups + 1)]
  }

  /** A `down` on `p`'s wait4 semaphore that does not block. */
  function Down(t: Tree, p: Ref): (r: Tree)
    requires p in t && t[p].wakeups > 0
    ensures r.Keys == t.Keys
    ensures r[p] == t[p].(wakeups := t[p].wakeups - 1)
    ensures forall q :: q in t && q != p ==> r[q] == t[q]
  {
    t[p := t[p].(wakeups := t[p].wakeups - 1)]
  }

  /**
   * `wakeup_parent`: record the status and the exited flag of `self` (a
   * second call overwrites the status), then wake the parent's wait4, if
   * there is a parent. Nothing else changes.
   */
  function WakeupParent(t: Tree, self: Ref, status: int): (r: Tree)
    requires ParentLive(t, self)
    ensures r.Keys == t.Keys
    ensures r[self].hasExited && r[self].exitStatus == status
    ensures forall p :: p in t && p != self ==>
      r[p].hasExited == t[p].hasExited && r[p].exitStatus == t[p].exitStatus
    ensures forall p :: p in t ==>
      r[p].pid == t[p].pid && r[p].parent == t[p].parent && r[p].children == t[p].children
    ensures forall p :: p in t ==>
      r[p].wakeups == if t[self].parent == Some(p) then t[p].wakeups + 1 else t[p].wakeups
  {
    var exited := t[self := t[self].(hasExited := true, exitStatus := status)];
    match t[self].parent
    case None => exited
    case Some(q) => Up(exited, q)
  }

  /** Recording an exit keeps the tree valid. */
  lemma WakeupParentPreservesValid(t: Tree, self: Ref, status: int)
    requires Valid(t) && self in t
    ensures Valid(WakeupParent(t, self, status))
  {
  }

  /**
   * Nothing guards against a second `wakeup_parent`: the later status wins
   * and the parent is woken twice.
   */
  lemma SecondWakeupOverwritesStatus(t: Tree, self: Ref, first: int, second: int)
    requires ParentLive(t, self)
    ensures var r := WakeupParent(WakeupParent(t, self, first), self, second);
      && r[self].exitStatus == second
      && (t[self].parent.Some? && t[self].parent.value != self ==>
            r[t[self].parent.value].wakeups == t[t[self].parent.value].wakeups + 2)
  {
  }

  /**
   * Position of the first member of `kids`, in list order, that has exited;
   * `|kids|` when none has.
   */
  function FirstExitedIndex(t: Tree, kids: seq<Ref>): (i: nat)
    requires AllLive(t, kids)
    ensures i <= |kids|
    ensures i < |kids| ==> t[kids[i]].hasExited
    ensures forall j :: 0 <= j < i ==> !t[kids[j]].hasExited
  {
    if |kids| == 0 then 0
    else if t[kids[0]].hasExited then 0
    else 1 + FirstExitedIndex(t, kids[1..])
  }

  /**
   * The reference for `poll4`: the first member of `kids`, in list order,
   * that has exited, or none when no member has.
   */
  function FirstExited(t: Tree, kids: seq<Ref>): (r: Option<Ref>)
    requires AllLive(t, kids)
    ensures r.None? <==> forall c :: c in kids ==> !t[c].hasExited
    ensures r.Some? ==> r.value in kids && t[r.value].hasExited
  {
    var i := FirstExitedIndex(t, kids);
    assert forall c :: c in kids ==> exists j :: 0 <= j < |kids| && kids[j] == c;
    if i < |kids| then
      assert kids[i] in kids;
      Some(kids[i])
    else None
  }

  /** `poll4`: scan `self`'s child list for the first member that has exited. */
  method Poll4(t: Tree, self: Ref) returns (r: Option<Ref>)
    requires ChildrenLive(t, self)
    ensures r == FirstExited(t, t[self].children)
    ensures r.Some? ==> r.value in t[self].children && t[r.value].hasExited
  {
    var kids := t[self].children;
    var i := 0;
    while i < |kids|
      invariant 0 <= i <= |kids|
      invariant FirstExited(t, kids[i..]) == FirstExited(t, kids)
    {
      if t[kids[i]].hasExited {
        return Some(kids[i]);
      }
      assert kids[i..][1..] == kids[i + 1..];
      i := i + 1;
    }
    return None;
  }

  /** `cur` has the members of `t`, with the same parent links and child lists. */
  ghost predicate SameShape(t: Tree, cur: Tree)
  {
    && cur.Keys == t.Keys
    && forall p :: p in t ==> cur[p].children == t[p].children && cur[p].parent == t[p].parent
  }

  /**
   * What `wait4` of `self` relies on: `self` and the members of its list are
   * alive and each names `self` as its parent. Members elsewhere in the tree
   * may hold dangling links.
   */
  ghost predicate OwnsItsList(t: Tree, self: Ref)
  {
    ChildrenLive(t, self) && forall c :: c in t[self].children ==> t[c].parent == Some(self)
  }

  /** A valid tree satisfies `OwnsItsList` for each of its members. */
  lemma ValidOwnsItsList(t: Tree, self: Ref)
    requires Valid(t) && self in t
    ensures OwnsItsList(t, self)
  {
    forall c | c in t[self].children
      ensures t[c].parent == Some(self)
    {
    }
  }

  /** Every member that exits in `es` is alive, and so is its parent. */
  predicate ExitsLive(t: Tree, es: seq<ExitEvent>)
  {
    forall k :: 0 <= k < |es| ==> ParentLive(t, es[k].member)
  }

  /** Whether `p` exits in `es[i..j]`. */
  function ExitsIn(es: seq<ExitEvent>, i: int, j: int, p: Ref): bool
    requires 0 <= i <= j <= |es|
    decreases j
  {
    if j == i then false else es[j - 1].member == p || ExitsIn(es, i, j - 1, p)
  }

  /** The status of the last exit of `p` in `es[i..j]`; `prev` when `p` does not exit there. */
  function LastStatus(es: seq<ExitEvent>, i: int, j: int, p: Ref, prev: int): int
    requires 0 <= i <= j <= |es|
    decreases j
  {
    if j == i then prev
    else if es[j - 1].member == p then es[j - 1].status
    else LastStatus(es, i, j - 1, p, prev)
  }

  /**
   * The number of exits in `es[i..j]` of a member whose parent in `t` is
   * `q`: the `up`s they cause on `q`'s wait4 semaphore.
   */
  function WakesIn(t: Tree, es: seq<ExitEvent>, i: int, j: int, q: Ref): nat
    requires 0 <= i <= j <= |es|
    decreases j
  {
    if j == i then 0
    else
      var m := es[j - 1].member;
      WakesIn(t, es, i, j - 1, q) + (if m in t && t[m].parent == Some(q) then 1 else 0)
  }

  /**
   * `after` is `before` with the exits `es[i..j]` delivered: the members and
   * their links are the same; a member has exited if it had before or exits
   * there, and it carries the status of its last exit there; every wait4
   * semaphore went up once for each of those exits of a child of its owner,
   * except that the semaphore of `self` may also have gone down again.
   */
  ghost predicate Delivered(before: Tree, after: Tree, es: seq<ExitEvent>, i: int, j: int, self: Ref)
  {
    && 0 <= i <= j <= |es|
    && SameShape(before, after)
    && (forall p :: p in before ==>
          && after[p].pid == before[p].pid
          && after[p].hasExited == (before[p].hasExited || ExitsIn(es, i, j, p))
          && after[p].exitStatus == LastStatus(es, i, j, p, before[p].exitStatus))
    && (forall p :: p in before && p != self ==>
          after[p].wakeups == before[p].wakeups + WakesIn(before, es, i, j, p))
    && (self in before ==> after[self].wakeups <= before[self].wakeups + WakesIn(before, es, i, j, self))
  }

  /** `p` exits in `es[i..j]` exactly when some exit there is of `p`. */
  lemma {:induction false} ExitsInMeans(es: seq<ExitEvent>, i: int, j: int, p: Ref)
    requires 0 <= i <= j <= |es|
    ensures ExitsIn(es, i, j, p) <==> exists k :: i <= k < j && es[k].member == p
    decreases j
  {
    if j > i {
      ExitsInMeans(es, i, j - 1, p);
      if es[j - 1].member == p {
        assert i <= j - 1 < j && es[j - 1].member == p;
      }
    }
  }

  /**
   * The status `LastStatus` picks is the one of the exit of `p` latest in
   * `es[i..j]`, and no later exit there is of `p`.
   */
  lemma {:induction false} LastStatusIsLatest(es: seq<ExitEvent>, i: int, j: int, p: Ref, prev: int, k: int)
    requires 0 <= i <= k < j <= |es| && es[k].member == p
    requires forall l :: k < l < j ==> es[l].member != p
    ensures LastStatus(es, i, j, p, prev) == es[k].status
    decreases j
  {
    if k < j - 1 {
      LastStatusIsLatest(es, i, j - 1, p, prev, k);
    }
  }

  /** An exit of a child of `q` in `es[i..j]` raises `q`'s semaphore at least once. */
  lemma {:induction false} WakesInCounts(t: Tree, es: seq<ExitEvent>, i: int, j: int, q: Ref, k: int)
    requires 0 <= i <= k < j <= |es|
    requires es[k].member in t && t[es[k].member].parent == Some(q)
    ensures WakesIn(t, es, i, j, q) > 0
    decreases j
  {
    if k < j - 1 {
      WakesInCounts(t, es, i, j - 1, q, k);
    }
  }

  /** Delivering `es[a..i]` and then `es[i..j]` is delivering `es[a..j]`. */
  lemma {:induction false} DeliveredSplit(es: seq<ExitEvent>, a: int, i: int, j: int, t: Tree, p: Ref, prev: int)
    requires 0 <= a <= i <= j <= |es|
    ensures ExitsIn(es, a, j, p) == (ExitsIn(es, a, i, p) || ExitsIn(es, i, j, p))
    ensures LastStatus(es, a, j, p, prev) == LastStatus(es, i, j, p, LastStatus(es, a, i, p, prev))
    ensures WakesIn(t, es, a, j, p) == WakesIn(t, es, a, i, p) + WakesIn(t, es, i, j, p)
    decreases j
  {
    if j > i {
      DeliveredSplit(es, a, i, j - 1, t, p, prev);
    }
  }

  /** The semaphore counts depend on the parent links alone. */
  lemma {:induction false} WakesInSameShape(t: Tree, cur: Tree, es: seq<ExitEvent>, i: int, j: int, q: Ref)
    requires SameShape(t, cur) && 0 <= i <= j <= |es|
    ensures WakesIn(cur, es, i, j, q) == WakesIn(t, es, i, j, q)
    decreases j
  {
    if j > i {
      WakesInSameShape(t, cur, es, i, j - 1, q);
    }
  }

  /**
   * Delivering the exits up to `es[i]` and then those up to `es[j]` is
   * delivering all of them, provided the second stretch leaves the semaphore
   * of `self` exactly as the exits make it.
   */
  lemma DeliveredTrans(t: Tree, cur: Tree, next: Tree, es: seq<ExitEvent>, i: int, j: int, self: Ref)
    requires Delivered(t, cur, es, 0, i, self) && Delivered(cur, next, es, i, j, self)
    requires self in cur ==> next[self].wakeups == cur[self].wakeups + WakesIn(cur, es, i, j, self)
    ensures Delivered(t, next, es, 0, j, self)
  {
    forall p | p in t
      ensures next[p].hasExited == (t[p].hasExited || ExitsIn(es, 0, j, p))
      ensures next[p].exitStatus == LastStatus(es, 0, j, p, t[p].exitStatus)
      ensures next[p].wakeups == cur[p].wakeups + WakesIn(t, es, i, j, p)
    {
      DeliveredSplit(es, 0, i, j, t, p, t[p].exitStatus);
      WakesInSameShape(t, cur, es, i, j, p);
    }
    forall p | p in t
      ensures WakesIn(t, es, 0, j, p) == WakesIn(t, es, 0, i, p) + WakesIn(t, es, i, j, p)
    {
      DeliveredSplit(es, 0, i, j, t, p, 0);
    }
  }

  /** One more exit, by `wakeup_parent`, extends the delivered stretch by one. */
  lemma DeliverOne(before: Tree, after: Tree, es: seq<ExitEvent>, i: int, j: int, self: Ref)
    requires Delivered(before, after, es, i, j, self) && j < |es| && ParentLive(after, es[j].member)
    requires self in before ==> after[self].wakeups == before[self].wakeups + WakesIn(before, es, i, j, self)
    ensures var next := WakeupParent(after, es[j].member, es[j].status);
      && Delivered(before, next, es, i, j + 1, self)
      && (self in before ==> next[self].wakeups == before[self].wakeups + WakesIn(before, es, i, j + 1, self))
  {
  }

  /** A `down` of `self` on its own semaphore keeps what has been delivered. */
  lemma DownKeepsDelivered(t: Tree, cur: Tree, es: seq<ExitEvent>, i: int, self: Ref)
    requires Delivered(t, cur, es, 0, i, self) && self in cur && cur[self].wakeups > 0
    ensures Delivered(t, Down(cur, self), es, 0, i, self)
  {
  }

  /**
   * `wait4`: poll; if no child has exited, block in `down` and poll again.
   * The other threads' exits are the schedule `exits`, delivered one by one
   * while this thread is blocked (each exit is one atomic step, so any
   * interleaving reorders to this one). When the schedule runs out with the
   * semaphore at zero the call is still blocked.
   *
   * The result is always a member that `poll4` returns on the tree of the
   * moment; a child that had exited already is returned at once; and an exit
   * of any member of the child list wakes the call — no wake-up is missed.
   * The tree returned is the initial one with the first `delivered` exits
   * recorded, statuses included; only the semaphore of `self` is lowered by
   * its downs.
   */
  method Wait4(t: Tree, self: Ref, exits: seq<ExitEvent>) returns (r: WaitOutcome)
    requires OwnsItsList(t, self) && ExitsLive(t, exits)
    ensures SameShape(t, r.tree) && OwnsItsList(r.tree, self)
    ensures Valid(t) ==> Valid(r.tree)
    ensures r.delivered <= |exits| && (r.StillWaiting? ==> r.delivered == |exits|)
    ensures Delivered(t, r.tree, exits, 0, r.delivered, self)
    ensures r.Woken? ==> FirstExited(r.tree, t[self].children) == Some(r.child)
    ensures r.Woken? ==> r.child in t[self].children && r.tree[r.child].hasExited
    ensures FirstExited(t, t[self].children).Some? ==>
      r == Woken(FirstExited(t, t[self].children).value, t, 0)
    ensures (exists k :: 0 <= k < |exits| && exits[k].member in t[self].children) ==> r.Woken?
  {
    var kids := t[self].children;
    var cur := t;
    var i := 0;
    while true
      invariant 0 <= i <= |exits|
      invariant SameShape(t, cur) && self in cur
      invariant forall k :: 0 <= k < i && exits[k].member in kids ==> cur[exits[k].member].hasExited
      invariant FirstExited(t, kids).Some? ==> cur == t && i == 0
      invariant Delivered(t, cur, exits, 0, i, self)
      decreases |exits| - i, cur[self].wakeups
    {
      ShapeKeepsList(t, cur, self);
      var found := Poll4(cur, self);
      if found.Some? {
        if Valid(t) {
          ShapeKeepsValid(t, cur);
        }
        return Woken(found.value, cur, i);
      }
      ShapeKeepsExitsLive(t, cur, exits);
      var next, j := BlockInDown(self, cur, exits, i);
      BlockedExits(t, self, cur, next, exits, i, j);
      DeliveredTrans(t, cur, next, exits, i, j, self);
      cur, i := next, j;
      if cur[self].wakeups == 0 {
        ShapeKeepsList(t, cur, self);
        if Valid(t) {
          ShapeKeepsValid(t, cur);
        }
        return StillWaiting(cur, i);
      }
      DownStep(t, cur, self);
      DownKeepsDelivered(t, cur, exits, i, self);
      cur := Down(cur, self);
    }
  }

  /** A non-blocking `down` keeps the tree's shape, its validity and its exited flags. */
  lemma DownStep(t: Tree, cur: Tree, self: Ref)
    requires SameShape(t, cur) && self in cur && cur[self].wakeups > 0
    ensures SameShape(t, Down(cur, self))
    ensures Valid(cur) ==> Valid(Down(cur, self))
    ensures forall p :: p in cur ==> Down(cur, self)[p].hasExited == cur[p].hasExited
  {
  }

  /**
   * The blocking `down` of `wait4` on a semaphore at zero: the scheduled
   * exits of other threads, from position `i` on, run until one of them
   * raises `self`'s semaphore or the schedule ends.
   */
  method BlockInDown(self: Ref, cur: Tree, exits: seq<ExitEvent>, i: nat)
    returns (cur': Tree, i': nat)
    requires self in cur && i <= |exits| && ExitsLive(cur, exits)
    ensures i <= i' <= |exits|
    ensures Valid(cur) ==> Valid(cur')
    ensures Delivered(cur, cur', exits, i, i', self)
    ensures cur'[self].wakeups == cur[self].wakeups + WakesIn(cur, exits, i, i', self)
    ensures cur'[self].wakeups > 0 || i' == |exits|
    ensures cur[self].wakeups > 0 ==> i' == i
  {
    cur', i' := cur, i;
    while cur'[self].wakeups == 0 && i' < |exits|
      invariant i <= i' <= |exits|
      invariant Delivered(cur, cur', exits, i, i', self)
      invariant cur'[self].wakeups == cur[self].wakeups + WakesIn(cur, exits, i, i', self)
      invariant cur[self].wakeups > 0 ==> i' == i
      decreases |exits| - i'
    {
      BlockStep(self, cur, cur', exits, i, i');
      cur' := WakeupParent(cur', exits[i'].member, exits[i'].status);
      i' := i' + 1;
    }
    if Valid(cur) {
      ShapeKeepsValid(cur, cur');
    }
  }

  /** One exit delivered while `wait4` blocks keeps what `BlockInDown`'s loop maintains. */
  lemma BlockStep(self: Ref, cur: Tree, cur': Tree, exits: seq<ExitEvent>, i: int, i': int)
    requires ExitsLive(cur, exits) && i' < |exits| && self in cur
    requires Delivered(cur, cur', exits, i, i', self)
    requires cur'[self].wakeups == cur[self].wakeups + WakesIn(cur, exits, i, i', self)
    ensures ParentLive(cur', exits[i'].member)
    ensures var next := WakeupParent(cur', exits[i'].member, exits[i'].status);
      && Delivered(cur, next, exits, i, i' + 1, self)
      && next[self].wakeups == cur[self].wakeups + WakesIn(cur, exits, i, i' + 1, self)
  {
    assert ParentLive(cur, exits[i'].member);
    DeliverOne(cur, cur', exits, i, i', self);
  }

  /** Validity is a matter of the members and their links alone. */
  lemma ShapeKeepsValid(t: Tree, cur: Tree)
    requires Valid(t) && SameShape(t, cur)
    ensures Valid(cur)
  {
  }

  /** `OwnsItsList` is a matter of the members and their links alone. */
  lemma ShapeKeepsList(t: Tree, cur: Tree, self: Ref)
    requires OwnsItsList(t, self) && SameShape(t, cur)
    ensures OwnsItsList(cur, self)
  {
    assert cur[self].children == t[self].children;
  }

  /** The exits that are live in a tree are live in any tree of the same shape. */
  lemma ShapeKeepsExitsLive(t: Tree, cur: Tree, es: seq<ExitEvent>)
    requires ExitsLive(t, es) && SameShape(t, cur)
    ensures ExitsLive(cur, es)
  {
    forall k | 0 <= k < |es|
      ensures ParentLive(cur, es[k].member)
    {
      assert ParentLive(t, es[k].member);
    }
  }

  /** What `BlockInDown`'s delivered stretch says about exited flags and `self`'s semaphore. */
  lemma BlockedExits(t: Tree, self: Ref, cur: Tree, cur': Tree, exits: seq<ExitEvent>, i: int, i': int)
    requires OwnsItsList(t, self) && SameShape(t, cur) && ExitsLive(t, exits)
    requires Delivered(cur, cur', exits, i, i', self)
    requires cur'[self].wakeups == cur[self].wakeups + WakesIn(cur, exits, i, i', self)
    ensures forall k :: i <= k < i' ==> cur'[exits[k].member].hasExited
    ensures (exists k :: i <= k < i' && exits[k].member in t[self].children) ==> cur'[self].wakeups > 0
  {
    forall k | i <= k < i'
      ensures cur'[exits[k].member].hasExited
    {
      ExitsInMeans(exits, i, i', exits[k].member);
    }
    if exists k :: i <= k < i' && exits[k].member in t[self].children {
      var k :| i <= k < i' && exits[k].member in t[self].children;
      WakesInCounts(cur, exits, i, i', self, k);
    }
  }

  /** Removing one member of a list keeps every other member in it. */
  lemma RemoveFirstKeepsOthers(s: seq<Ref>, m: Ref, x: Ref)
    requires x in s && x != m
    ensures x in RemoveFirst(s, m)
  {
    assert multiset(RemoveFirst(s, m))[x] == multiset(s)[x];
    assert x in multiset(s);
  }

  /** When `x` is the only member of `kids` that has exited, the scan finds it. */
  lemma OnlyExitedIsFirst(t: Tree, kids: seq<Ref>, x: Ref)
    requires AllLive(t, kids) && x in kids && t[x].hasExited
    requires forall c :: c in kids && t[c].hasExited ==> c == x
    ensures FirstExited(t, kids) == Some(x)
  {
    var r := FirstExited(t, kids);
    assert r.Some? && r.value in kids && t[r.value].hasExited;
    assert r.value == x;
  }

  /**
   * Two children that exited before their parent waits are reaped in turn:
   * the first poll returns one of them and, once that one is removed from the
   * child list, the next poll returns the other.
   */
  lemma ReapTwoExitedChildren(t: Tree, self: Ref, a: Ref, b: Ref)
    requires ChildrenLive(t, self) && NoDuplicates(t[self].children) && a != b
    requires a in t[self].children && b in t[self].children
    requires t[a].hasExited && t[b].hasExited
    requires forall c :: c in t[self].children && t[c].hasExited ==> c == a || c == b
    ensures FirstExited(t, t[self].children) in {Some(a), Some(b)}
    ensures var first := FirstExited(t, t[self].children).value;
      var t' := Remove(t, self, first);
      ChildrenLive(t', self) && FirstExited(t', t'[self].children) == Some(if first == a then b else a)
  {
    var kids := t[self].children;
    var first := FirstExited(t, kids).value;
    var other := if first == a then b else a;
    var kids' := RemoveFirst(kids, first);
    RemoveFirstNoDuplicates(kids, first);
    RemoveFirstKeepsOthers(kids, first, other);
    SubListLive(t, kids, kids');
    var t' := Remove(t, self, first);
    assert t'[self].children == kids';
    forall c | c in kids' && t'[c].hasExited
      ensures c == other
    {
      assert c in kids && c != first && t'[c].hasExited == t[c].hasExited;
    }
    assert t'[other].hasExited == t[other].hasExited;
    OnlyExitedIsFirst(t', kids', other);
  }
}

=== FILE: nouxchild.dfy ===
/**
 * A Noux child process (class Child in noux/child.h) as far as its own logic
 * goes: what the constructor sets up, how `exit` notifies the parent or the
 * runtime, and how the runtime reacts to the exit signal of the init
 * process. The virtual file system, the dataspace of the args and env
 * buffers and the `is_init_process` test are outside this model and enter as
 * parameters.
 */
module NouxChild {
  import opened Wrappers
  import opened Refs
  import opened Pids
  import opened Family
  import opened ChildResources
  import opened SessionPolicy
  import opened Sysio

  /** The ROM module names under which a child finds its binary, args and environment. */
  const BINARY_ROM: string := "binary"
  const ARGS_ROM: string := "args"
  const ENV_ROM: string := "env"

  /** The size of the child's name buffer, terminator included. */
  const MAX_NAME_LEN: nat := 64

  /**
   * What the name buffer holds after Genode's `strncpy(_name, name,
   * sizeof(_name))`: at most MAX_NAME_LEN - 1 characters of the name, the
   * last byte being left for the terminator. Each character stands for one
   * byte of a name without NUL bytes.
   */
  function NameBuffer(name: string): (r: string)
    ensures |r| < MAX_NAME_LEN
    ensures r <= name
    ensures r == name <==> |name| < MAX_NAME_LEN
    ensures |name| >= MAX_NAME_LEN ==> |r| == MAX_NAME_LEN - 1
  {
    if |name| < MAX_NAME_LEN then name else name[..MAX_NAME_LEN - 1]
  }

  /**
   * What a constructed child holds: the object itself (`self`, its identity
   * in the family tree), its pid, the name buffer that its labeling policy
   * reads, its resource bundle, the dataspace of its binary (absent for a
   * forked child), its three ROM policies, and the size of its syscall
   * buffer.
   */
  datatype Child = Child(
    self: Ref,
    pid: Pid,
    name: string,
    resources: Resources,
    binaryDs: Option<DataspaceId>,
    policies: RomPolicies,
    sysioSize: nat)

  /** The part of the runtime a child's construction and destruction touch. */
  datatype Runtime = Runtime(tree: Tree, ep: Entrypoint)

  /**
   * The Child constructor for the new object `self`. The Family_member base
   * records `pid` and `parent` (the parent does not list the child until it
   * calls `insert`); the pid need not be fresh, since the child that
   * `execve` creates takes over the pid of the child it replaces. The
   * resource bundle, labelled with the full name, registers its sessions
   * with the resources entrypoint (its CPU session is always created as not
   * forked); the binary comes from the file system under the full name
   * unless the child is a fork; the three ROM policies hand out the binary,
   * args and env dataspaces under their fixed names; and the name buffer
   * keeps the name cut to its size. The size of the Sysio structure is a
   * parameter.
   */
  function NewChild(
    rt: Runtime, name: string, parent: Option<Ref>, self: Ref, pid: Pid,
    argsDs: DataspaceId, envDs: DataspaceId, forked: bool,
    dataspaceFromFile: string -> DataspaceId, sizeofSysio: nat): (r: (Child, Runtime))
    requires self !in rt.tree
    ensures r.0.self == self && r.0.pid == pid
    ensures r.0.name <= name && |r.0.name| == if |name| < MAX_NAME_LEN then |name| else MAX_NAME_LEN - 1
    ensures r.0.resources.owner == self && r.0.resources.name == name
    ensures r.1.tree.Keys == rt.tree.Keys + {self}
    ensures r.1.tree[self] == Member(pid, parent, [], false, 0, 0)
    ensures forall p :: p in rt.tree ==> r.1.tree[p] == rt.tree[p]
    ensures !r.0.resources.cpuForked
    ensures r.0.binaryDs == if forked then None else Some(dataspaceFromFile(name))
    ensures r.0.policies == RomPolicies(
      RomPolicy(ARGS_ROM, Some(argsDs)), RomPolicy(ENV_ROM, Some(envDs)),
      RomPolicy(BINARY_ROM, r.0.binaryDs))
    ensures r.0.sysioSize % PAGE_SIZE == 0 && sizeofSysio <= r.0.sysioSize < sizeofSysio + PAGE_SIZE
    ensures r.1.ep.managed == rt.ep.managed + HandlesOf(self)
  {
    var tree := AddMember(rt.tree, self, pid, parent);
    var (res, ep) := NewResources(self, name, rt.ep, false);
    var binary := if forked then None else Some(dataspaceFromFile(name));
    var policies := RomPolicies(
      RomPolicy(ARGS_ROM, Some(argsDs)), RomPolicy(ENV_ROM, Some(envDs)),
      RomPolicy(BINARY_ROM, binary));
    (Child(self, pid, NameBuffer(name), res, binary, policies, SysioDsSize(sizeofSysio)), Runtime(tree, ep))
  }

  /**
   * The `forked` flag changes nothing but the binary: a forked child has no
   * binary dataspace, while its resources, its args and env policies, its
   * place in the tree and the entrypoint are those of a child spawned from
   * the binary.
   */
  lemma ForkedAffectsOnlyBinary(
    rt: Runtime, name: string, parent: Option<Ref>, self: Ref, pid: Pid,
    argsDs: DataspaceId, envDs: DataspaceId,
    dataspaceFromFile: string -> DataspaceId, sizeofSysio: nat)
    requires self !in rt.tree
    ensures var (f, rtf) := NewChild(rt, name, parent, self, pid, argsDs, envDs, true, dataspaceFromFile, sizeofSysio);
      var (s, rts) := NewChild(rt, name, parent, self, pid, argsDs, envDs, false, dataspaceFromFile, sizeofSysio);
      && f.binaryDs.None? && s.binaryDs.Some?
      && f == s.(binaryDs := None, policies := s.policies.(binary := RomPolicy(BINARY_ROM, None)))
      && rtf == rts
  {
  }

  /**
   * The Child destructor, with the destruction of its members and bases:
   * the resource bundle dissolves its sessions from the resources
   * entrypoint before they are freed, and the Family_member base leaves the
   * tree. Nothing here takes the child out of its parent's list or
   * re-parents its children.
   */
  function DestroyChild(c: Child, rt: Runtime): (r: Result<Runtime, TeardownError>)
    ensures r.Success?
    ensures r.value.tree.Keys == rt.tree.Keys - {c.self}
    ensures forall p :: p in r.value.tree ==> r.value.tree[p] == rt.tree[p]
    ensures r.value.ep.managed == rt.ep.managed - HandlesOf(c.resources.owner)
  {
    match DestroyResources(c.resources, rt.ep)
    case Success(ep) => Success(Runtime(DestroyMember(rt.tree, c.self), ep))
    case Failure(e) => Failure(e)
  }

  /**
   * Destroying a child keeps a valid tree valid exactly when no member
   * lists the child and no member names it as its parent.
   */
  lemma DestroyChildValid(c: Child, rt: Runtime)
    requires Valid(rt.tree)
    ensures Valid(DestroyChild(c, rt).value.tree) <==>
      && (forall p :: p in rt.tree && p != c.self ==> c.self !in rt.tree[p].children)
      && (forall m :: m in rt.tree && m != c.self ==> rt.tree[m].parent != Some(c.self))
  {
    DestroyMemberValid(rt.tree, c.self);
  }

  /**
   * Constructing and destroying a child object that is new to the tree
   * leaves the tree as it was and the resources entrypoint serving what it
   * served before.
   */
  lemma ChildRoundTrip(
    rt: Runtime, name: string, parent: Option<Ref>, self: Ref, pid: Pid,
    argsDs: DataspaceId, envDs: DataspaceId, forked: bool,
    dataspaceFromFile: string -> DataspaceId, sizeofSysio: nat)
    requires self !in rt.tree && HandlesOf(self) !! rt.ep.managed
    ensures var (c, rt') := NewChild(rt, name, parent, self, pid, argsDs, envDs, forked, dataspaceFromFile, sizeofSysio);
      && DestroyChild(c, rt').value.tree == rt.tree
      && DestroyChild(c, rt').value.ep.managed == rt.ep.managed
  {
    var (c, rt') := NewChild(rt, name, parent, self, pid, argsDs, envDs, forked, dataspaceFromFile, sizeofSysio);
    assert DestroyChild(c, rt').value.tree.Keys == rt.tree.Keys;
  }

  /**
   * `execve`: a new Child object takes over the pid and the parent of the
   * old one, and the cleanup dispatcher then destroys the old object. The
   * new child keeps its place in the tree and every session of its own
   * bundle, while none of the old bundle's sessions is served any more.
   */
  lemma ExecveReplacesChild(
    rt: Runtime, prev: Child, name: string, self: Ref,
    argsDs: DataspaceId, envDs: DataspaceId,
    dataspaceFromFile: string -> DataspaceId, sizeofSysio: nat)
    requires prev.self in rt.tree && prev.resources.owner == prev.self && self !in rt.tree
    ensures var parent := rt.tree[prev.self].parent;
      var (c, rt') := NewChild(rt, name, parent, self, prev.pid, argsDs, envDs, false, dataspaceFromFile, sizeofSysio);
      var after := DestroyChild(prev, rt').value;
      && c.pid == prev.pid && c.self != prev.self
      && after.tree.Keys == rt.tree.Keys - {prev.self} + {self}
      && after.tree[self] == Member(prev.pid, parent, [], false, 0, 0)
      && HandlesOf(self) <= after.ep.managed
      && HandlesOf(prev.self) !! after.ep.managed
  {
    var parent := rt.tree[prev.self].parent;
    var (c, rt') := NewChild(rt, name, parent, self, prev.pid, argsDs, envDs, false, dataspaceFromFile, sizeofSysio);
    var after := DestroyChild(prev, rt').value;
    assert HandlesOf(self) !! HandlesOf(prev.self);
  }

  /**
   * Creating a child of a live member: a pid from an allocator that has
   * issued every live pid differs from all of them, and once the parent has
   * inserted the new child into its list the tree is valid again and the
   * parent lists the child.
   */
  lemma SpawnKeepsTreeValid(
    rt: Runtime, a: PidAllocator, name: string, parent: Ref, self: Ref,
    argsDs: DataspaceId, envDs: DataspaceId, forked: bool,
    dataspaceFromFile: string -> DataspaceId, sizeofSysio: nat, at: nat)
    requires Valid(rt.tree) && parent in rt.tree && self !in rt.tree
    requires forall p :: p in rt.tree ==> Issued(a, rt.tree[p].pid)
    requires at <= |rt.tree[parent].children|
    ensures forall p :: p in rt.tree ==> rt.tree[p].pid != Alloc(a).0
    ensures var pid := Alloc(a).0;
      var (c, rt') := NewChild(rt, name, Some(parent), self, pid, argsDs, envDs, forked, dataspaceFromFile, sizeofSysio);
      var t := Insert(rt'.tree, parent, self, at);
      && Valid(t) && self in t[parent].children && t[self].parent == Some(parent) && t[self].pid == pid
  {
    var pid := Alloc(a).0;
    AllocIsFresh(a);
    var (c, rt') := NewChild(rt, name, Some(parent), self, pid, argsDs, envDs, forked, dataspaceFromFile, sizeofSysio);
    assert rt'.tree == AddMember(rt.tree, self, pid, Some(parent));
    AddMemberPreservesValid(rt.tree, self, pid, Some(parent));
    InsertPreservesValid(rt'.tree, parent, self, at);
    var t := Insert(rt'.tree, parent, self, at);
    assert multiset(t[parent].children)[self] > 0;
  }

  /** The result of `exit`: the tree afterwards and whether the exit signal went to the runtime. */
  datatype ExitOutcome = ExitOutcome(tree: Tree, rootExitSubmitted: bool)

  /**
   * `exit`: record the exit value through `wakeup_parent` and, for the root
   * of the tree (no parent), submit the child's exit signal.
   */
  function Exit(t: Tree, self: Ref, exitValue: int): (r: ExitOutcome)
    requires ParentLive(t, self)
    ensures r.rootExitSubmitted <==> t[self].parent.None?
    ensures r.tree.Keys == t.Keys
    ensures r.tree[self].hasExited && r.tree[self].exitStatus == exitValue
  {
    var t' := WakeupParent(t, self, exitValue);
    ExitOutcome(t', t'[self].parent.None?)
  }

  /**
   * An exit notifies exactly once: either the parent's wait4 semaphore goes
   * up by one and no signal is sent, or (for the root) the exit signal is
   * sent and no semaphore moves.
   */
  lemma ExitNotifiesExactlyOnce(t: Tree, self: Ref, exitValue: int)
    requires ParentLive(t, self)
    ensures var r := Exit(t, self, exitValue);
      || (&& r.rootExitSubmitted
          && forall p :: p in t ==> r.tree[p].wakeups == t[p].wakeups)
      || (&& !r.rootExitSubmitted
          && exists q :: q in t && t[self].parent == Some(q)
               && r.tree[q].wakeups == t[q].wakeups + 1
               && forall p :: p in t && p != q ==> r.tree[p].wakeups == t[p].wakeups)
  {
    var r := Exit(t, self, exitValue);
    if t[self].parent.Some? {
      var q := t[self].parent.value;
      assert q in t && r.tree[q].wakeups == t[q].wakeups + 1;
    }
  }

  /** An exit keeps the tree valid. */
  lemma ExitPreservesValid(t: Tree, self: Ref, exitValue: int)
    requires Valid(t) && self in t
    ensures Valid(Exit(t, self, exitValue).tree)
  {
    WakeupParentPreservesValid(t, self, exitValue);
  }

  /**
   * Child_exit_dispatcher::dispatch: when the exited child is the init
   * process, end the runtime's main event loop (`init_process_exited`);
   * otherwise nothing. `running` is whether the main loop still runs.
   */
  function DispatchExit(isInit: bool, running: bool): (r: bool)
    ensures r <==> running && !isInit
  {
    if isInit then false else running
  }

  /**
   * The main loop after `self` exits: the exit signal is dispatched only if
   * `exit` submitted it. `isInit` is the runtime's `is_init_process` test.
   */
  function RunningAfterExit(t: Tree, self: Ref, exitValue: int, isInit: Ref -> bool, running: bool): bool
    requires ParentLive(t, self)
  {
    if Exit(t, self, exitValue).rootExitSubmitted then DispatchExit(isInit(self), running) else running
  }

  /**
   * The main loop stops because of an exit exactly when the exiting process
   * is the root of the tree and is the init process; every other exit,
   * including that of a parentless process the runtime does not consider
   * init, leaves the loop as it was.
   */
  lemma MainLoopEndsOnlyWithInit(t: Tree, self: Ref, exitValue: int, isInit: Ref -> bool, running: bool)
    requires ParentLive(t, self)
    ensures RunningAfterExit(t, self, exitValue, isInit, running)
      <==> running && !(t[self].parent.None? && isInit(self))
  {
  }
}

=== FILE: pids.dfy ===
/**
 * The process-id allocator of the Noux runtime (class Pid_allocator in
 * noux/child.h). The lock that guards `alloc` is not modelled: each call is
 * one atomic step on an immutable allocator value.
 */
module Pids {

  /** Process ids are plain C++ `int`s. */
  type Pid = int

  /** The allocator holds the number of ids handed out so far. */
  datatype PidAllocator = PidAllocator(numPids: nat)

  /** A freshly constructed allocator starts counting at zero. */
  function NewAllocator(): (a: PidAllocator)
    ensures a.numPids == 0
  {
    PidAllocator(0)
  }

  /** `alloc`: return the current counter, then advance it (post-increment). */
  function Alloc(a: PidAllocator): (r: (Pid, PidAllocator))
    ensures r.1.numPids > r.0
  {
    (a.numPids, PidAllocator(a.numPids + 1))
  }

  /**
   * The ids handed out so far: the counter starts at zero and each `alloc`
   * hands out its current value, so these are exactly 0 up to the counter.
   */
  predicate Issued(a: PidAllocator, pid: Pid)
  {
    0 <= pid < a.numPids
  }

  /** The id `alloc` returns was not issued before and is issued after. */
  lemma AllocIsFresh(a: PidAllocator)
    ensures !Issued(a, Alloc(a).0)
    ensures Issued(Alloc(a).1, Alloc(a).0)
    ensures forall p :: Issued(a, p) ==> Issued(Alloc(a).1, p) && p != Alloc(a).0
  {
  }

  /**
   * `n` successive calls of `alloc`: the ids are consecutive from the current
   * counter, strictly increasing (hence pairwise distinct), all issued
   * afterwards, and the counter has advanced by exactly `n`.
   */
  method AllocMany(a: PidAllocator, n: nat) returns (pids: seq<Pid>, a': PidAllocator)
    ensures |pids| == n
    ensures forall i :: 0 <= i < n ==> pids[i] == a.numPids + i
    ensures forall i, j :: 0 <= i < j < n ==> pids[i] < pids[j]
    ensures forall i :: 0 <= i < n ==> !Issued(a, pids[i]) && Issued(a', pids[i])
    ensures a'.numPids == a.numPids + n
  {
    pids := [];
    a' := a;
    while |pids| < n
      invariant |pids| <= n
      invariant a'.numPids == a.numPids + |pids|
      invariant forall i :: 0 <= i < |pids| ==> pids[i] == a.numPids + i
    {
      var r := Alloc(a');
      pids := pids + [r.0];
      a' := r.1;
    }
  }

  /** Starting from a fresh allocator, `n` calls return exactly 0 .. n-1. */
  lemma FreshAllocatorIssuesFromZero(pids: seq<Pid>, n: nat)
    requires |pids| == n
    requires forall i :: 0 <= i < n ==> pids[i] == NewAllocator().numPids + i
    ensures forall i :: 0 <= i < n ==> pids[i] == i
    ensures forall p :: p in pids <==> 0 <= p < n
  {
    forall p | 0 <= p < n
      ensures p in pids
    {
      assert pids[p] == p;
    }
  }
}

=== FILE: policy.dfy ===
/**
 * The service resolution of a Noux child (Child::resolve_session_request in
 * noux/child.h). The three ROM-file policies and the parent's service
 * registry are library code whose internals are not part of this model: a
 * policy's match is the opaque predicate `romMatch`, and the registry lookup
 * is the opaque function `parentFind`.
 */
module SessionPolicy {
  import opened Wrappers

  /** A dataspace, by identity only. */
  type DataspaceId = nat

  /** The name of the Noux session interface (Noux::Session::service_name()). */
  const NOUX_SERVICE: string := "Noux"

  /** The name of the RM session interface (Rm_session::service_name()). */
  const RM_SERVICE: string := "RM"

  /** A Child_policy_provide_rom_file: a ROM module name and the dataspace it hands out. */
  datatype RomPolicy = RomPolicy(romName: string, ds: Option<DataspaceId>)

  /** The ROM policies of one child. */
  datatype RomPolicies = RomPolicies(args: RomPolicy, env: RomPolicy, binary: RomPolicy)

  /** Where a session request is served; `None` stands for the null pointer. */
  datatype Service =
    | LocalRom(romName: string)
    | LocalNoux
    | LocalRm
    | ParentService(id: nat)

  /**
   * `resolve_session_request`: the first that matches of the args, env and
   * binary ROM policies, the local Noux service, the local RM service, and
   * finally the parent's registry. A ROM match always wins; the local
   * services answer only to their own names; `None` (the null pointer) comes
   * only when nothing local matches and the registry knows no such service.
   */
  function ResolveSessionRequest(
    p: RomPolicies, serviceName: string, args: string,
    romMatch: (RomPolicy, string, string) -> bool,
    parentFind: string -> Option<nat>): (r: Option<Service>)
    ensures AnyRomMatch(p, serviceName, args, romMatch) ==> r.Some? && r.value.LocalRom?
    ensures r == Some(LocalNoux) ==> serviceName == NOUX_SERVICE
    ensures r == Some(LocalRm) ==> serviceName == RM_SERVICE
    ensures r.Some? && r.value.ParentService? ==>
      && !AnyRomMatch(p, serviceName, args, romMatch)
      && serviceName != NOUX_SERVICE && serviceName != RM_SERVICE
      && parentFind(serviceName) == Some(r.value.id)
    ensures r.None? <==>
      && !AnyRomMatch(p, serviceName, args, romMatch)
      && serviceName != NOUX_SERVICE && serviceName != RM_SERVICE
      && parentFind(serviceName).None?
  {
    if romMatch(p.args, serviceName, args) then Some(LocalRom(p.args.romName))
    else if romMatch(p.env, serviceName, args) then Some(LocalRom(p.env.romName))
    else if romMatch(p.binary, serviceName, args) then Some(LocalRom(p.binary.romName))
    else if serviceName == NOUX_SERVICE then Some(LocalNoux)
    else if serviceName == RM_SERVICE then Some(LocalRm)
    else FromRegistry(parentFind(serviceName))
  }

  /** Some ROM policy of the child claims the request. */
  predicate AnyRomMatch(p: RomPolicies, serviceName: string, args: string,
                        romMatch: (RomPolicy, string, string) -> bool)
  {
    romMatch(p.args, serviceName, args) || romMatch(p.env, serviceName, args)
      || romMatch(p.binary, serviceName, args)
  }

  /** A registry entry as a service, the null pointer as `None`. */
  function FromRegistry(found: Option<nat>): Option<Service>
  {
    match found
    case None => None
    case Some(id) => Some(ParentService(id))
  }

  /**
   * Each resolution step on its own, in the order the source tries them:
   * the answer of that step, or `None` when its guard does not hold.
   */
  function Candidates(
    p: RomPolicies, serviceName: string, args: string,
    romMatch: (RomPolicy, string, string) -> bool,
    parentFind: string -> Option<nat>): (c: seq<Option<Service>>)
    ensures |c| == 6
  {
    [ if romMatch(p.args, serviceName, args) then Some(LocalRom(p.args.romName)) else None,
      if romMatch(p.env, serviceName, args) then Some(LocalRom(p.env.romName)) else None,
      if romMatch(p.binary, serviceName, args) then Some(LocalRom(p.binary.romName)) else None,
      if serviceName == NOUX_SERVICE then Some(LocalNoux) else None,
      if serviceName == RM_SERVICE then Some(LocalRm) else None,
      FromRegistry(parentFind(serviceName)) ]
  }

  /** Position of the first candidate that answers; `|c|` when none does. */
  function FirstAnswerIndex(c: seq<Option<Service>>): (i: nat)
    ensures i <= |c|
    ensures i < |c| ==> c[i].Some?
    ensures forall j :: 0 <= j < i ==> c[j].None?
  {
    if |c| == 0 then 0
    else if c[0].Some? then 0
    else 1 + FirstAnswerIndex(c[1..])
  }

  /** First-match semantics: the answer of the first candidate that answers, if any. */
  function FirstAnswer(c: seq<Option<Service>>): (r: Option<Service>)
    ensures r.None? <==> forall j :: 0 <= j < |c| ==> c[j].None?
    ensures r.Some? ==> exists i :: 0 <= i < |c| && c[i] == r
  {
    var i := FirstAnswerIndex(c);
    if i < |c| then c[i] else None
  }

  /**
   * The chain of `if`s is first-match resolution over the ordered steps:
   * an earlier step that answers hides every later one.
   */
  lemma ResolveIsFirstMatch(
    p: RomPolicies, serviceName: string, args: string,
    romMatch: (RomPolicy, string, string) -> bool,
    parentFind: string -> Option<nat>)
    ensures ResolveSessionRequest(p, serviceName, args, romMatch, parentFind)
      == FirstAnswer(Candidates(p, serviceName, args, romMatch, parentFind))
  {
    var c := Candidates(p, serviceName, args, romMatch, parentFind);
    var i := FirstAnswerIndex(c);
    if c[0].Some? {
      assert i == 0;
    } else if c[1].Some? {
      assert i == 1;
    } else if c[2].Some? {
      assert i == 2;
    } else if c[3].Some? {
      assert i == 3;
    } else if c[4].Some? {
      assert i == 4;
    } else if c[5].Some? {
      assert i == 5;
    } else {
      assert i == 6;
    }
  }
}

=== FILE: refs.dfy ===
/**
 * Object identity. The process tree links its members by pointer, and a
 * pid is only a number stored in a member: after `execve` two Child objects
 * with the same pid exist until the old one is destroyed. A `Ref` stands for
 * the address of a live object.
 */
module Refs {
  type Ref = int
}

=== FILE: resources.dfy ===
/**
 * The resource bundle of a Noux child (struct Child::Resources in
 * noux/child.h): the locally provided RAM, CPU and RM session objects and
 * their registration with the shared resources entrypoint.
 *
 * The entrypoint is modelled by the set of objects it currently serves and a
 * log of what happened to each object, in order. Freeing the memory of an
 * object the entrypoint still serves is the hazard the log guards against.
 */
module ChildResources {
  import opened Wrappers
  import opened Refs

  /** The three locally provided platform sessions of one child. */
  datatype Kind = Ram | Cpu | Rm

  /**
   * The session object of kind `kind` in the bundle of the Child object
   * `owner`. Two Child objects with the same pid (the old and the new one
   * of an `execve`) own different objects.
   */
  datatype Handle = Handle(owner: Ref, kind: Kind)

  /** The steps in the life of a session object. */
  datatype Step = Construct | Manage | Dissolve | Release

  /** One step taken on a session object. */
  datatype Event = Event(step: Step, h: Handle)

  /** The resources entrypoint: the objects it serves and its history. */
  datatype Entrypoint = Entrypoint(managed: set<Handle>, log: seq<Event>)

  /** Freeing an object while the entrypoint still serves it. */
  datatype TeardownError = ReleasedWhileManaged(h: Handle)

  /** One child's bundle; `cpuForked` is the flag handed to the CPU session. */
  datatype Resources = Resources(owner: Ref, name: string, cpuForked: bool)

  function HandlesOf(owner: Ref): set<Handle>
  {
    {Handle(owner, Ram), Handle(owner, Cpu), Handle(owner, Rm)}
  }

  /** Members in declaration order: ram, cpu, rm. */
  function DeclarationOrder(owner: Ref): seq<Handle>
  {
    [Handle(owner, Ram), Handle(owner, Cpu), Handle(owner, Rm)]
  }

  /** The order of the `ep.manage` calls of the constructor, and of the `ep.dissolve` calls of the destructor. */
  function RegistrationOrder(owner: Ref): seq<Handle>
  {
    [Handle(owner, Ram), Handle(owner, Rm), Handle(owner, Cpu)]
  }

  /** Members are destroyed in reverse declaration order: rm, cpu, ram. */
  function ReleaseOrder(owner: Ref): seq<Handle>
  {
    [Handle(owner, Rm), Handle(owner, Cpu), Handle(owner, Ram)]
  }

  /** Construct the session objects `hs`, in order; the entrypoint does not serve them yet. */
  function ConstructAll(ep: Entrypoint, hs: seq<Handle>): (r: Entrypoint)
    ensures r.managed == ep.managed
    ensures r.log == ep.log + Stamp(hs, Construct)
    decreases |hs|
  {
    if |hs| == 0 then ep
    else
      LogStep(ep.log, hs, Construct);
      ConstructAll(ep.(log := ep.log + [Event(Construct, hs[0])]), hs[1..])
  }

  /** `ep.manage` for each of `hs`, in order. */
  function ManageAll(ep: Entrypoint, hs: seq<Handle>): (r: Entrypoint)
    ensures r.managed == ep.managed + set h | h in hs
    ensures r.log == ep.log + Stamp(hs, Manage)
    decreases |hs|
  {
    if |hs| == 0 then ep
    else
      LogStep(ep.log, hs, Manage);
      HeadAndTail(hs);
      ManageAll(Entrypoint(ep.managed + {hs[0]}, ep.log + [Event(Manage, hs[0])]), hs[1..])
  }

  /** `ep.dissolve` for each of `hs`, in order. */
  function DissolveAll(ep: Entrypoint, hs: seq<Handle>): (r: Entrypoint)
    ensures r.managed == ep.managed - set h | h in hs
    ensures r.log == ep.log + Stamp(hs, Dissolve)
    decreases |hs|
  {
    if |hs| == 0 then ep
    else
      LogStep(ep.log, hs, Dissolve);
      HeadAndTail(hs);
      DissolveAll(Entrypoint(ep.managed - {hs[0]}, ep.log + [Event(Dissolve, hs[0])]), hs[1..])
  }

  /**
   * Free the memory of each of `hs`, in order; fails at the first object the
   * entrypoint still serves.
   */
  function ReleaseAll(ep: Entrypoint, hs: seq<Handle>): (r: Result<Entrypoint, TeardownError>)
    ensures r.Success? <==> forall h :: h in hs ==> h !in ep.managed
    ensures r.Success? ==> r.value == Entrypoint(ep.managed, ep.log + Stamp(hs, Release))
    ensures r.Failure? ==> r.error.h in hs && r.error.h in ep.managed
  {
    match FirstServed(ep, hs)
    case Some(h) => Failure(ReleasedWhileManaged(h))
    case None => Success(Entrypoint(ep.managed, ep.log + Stamp(hs, Release)))
  }

  /** The first of `hs`, in order, that the entrypoint still serves. */
  function FirstServed(ep: Entrypoint, hs: seq<Handle>): (r: Option<Handle>)
    ensures r.None? <==> forall h :: h in hs ==> h !in ep.managed
    ensures r.Some? ==> r.value in hs && r.value in ep.managed
  {
    if |hs| == 0 then None
    else if hs[0] in ep.managed then Some(hs[0])
    else
      assert forall h :: h in hs ==> h == hs[0] || h in hs[1..];
      FirstServed(ep, hs[1..])
  }

  /** The events of step `step` for each of `hs`, in order. */
  function Stamp(hs: seq<Handle>, step: Step): (r: seq<Event>)
    ensures |r| == |hs|
    ensures forall i :: 0 <= i < |hs| ==> r[i] == Event(step, hs[i])
  {
    seq(|hs|, i requires 0 <= i < |hs| => Event(step, hs[i]))
  }

  lemma StampCons(hs: seq<Handle>, step: Step)
    requires |hs| > 0
    ensures Stamp(hs, step) == [Event(step, hs[0])] + Stamp(hs[1..], step)
  {
  }

  /** Logging the step for `hs` is logging it for the first and then for the rest. */
  lemma LogStep(log: seq<Event>, hs: seq<Handle>, step: Step)
    requires |hs| > 0
    ensures log + Stamp(hs, step) == (log + [Event(step, hs[0])]) + Stamp(hs[1..], step)
  {
    StampCons(hs, step);
  }

  /** The elements of a non-empty sequence are its first and those of the rest. */
  lemma HeadAndTail(hs: seq<Handle>)
    requires |hs| > 0
    ensures (set h | h in hs) == {hs[0]} + set h | h in hs[1..]
  {
    assert forall h :: h in hs <==> h == hs[0] || h in hs[1..];
  }

  /**
   * The constructor: the members are constructed in declaration order, then
   * the body registers ram, rm and cpu with the entrypoint. The `forked` flag
   * reaches the CPU session only.
   */
  function NewResources(owner: Ref, name: string, ep: Entrypoint, forked: bool): (r: (Resources, Entrypoint))
    ensures r.0.owner == owner && r.0.cpuForked == forked
    ensures r.1.managed == ep.managed + HandlesOf(owner)
    ensures r.1.log == ep.log + Stamp(DeclarationOrder(owner), Construct) + Stamp(RegistrationOrder(owner), Manage)
  {
    var built := ConstructAll(ep, DeclarationOrder(owner));
    var served := ManageAll(built, RegistrationOrder(owner));
    assert (set h | h in RegistrationOrder(owner)) == HandlesOf(owner);
    (Resources(owner, name, forked), served)
  }

  /**
   * The destructor: the body dissolves ram, rm and cpu from the entrypoint;
   * afterwards the members are destroyed in reverse declaration order. None
   * of the three is freed while the entrypoint still serves it, and the
   * entrypoint serves none of them afterwards.
   */
  function DestroyResources(res: Resources, ep: Entrypoint): (r: Result<Entrypoint, TeardownError>)
    ensures r.Success?
    ensures r.value.managed == ep.managed - HandlesOf(res.owner)
    ensures r.value.log == ep.log + Stamp(RegistrationOrder(res.owner), Dissolve) + Stamp(ReleaseOrder(res.owner), Release)
  {
    var dissolved := DissolveAll(ep, RegistrationOrder(res.owner));
    assert (set h | h in RegistrationOrder(res.owner)) == HandlesOf(res.owner);
    ReleaseAll(dissolved, ReleaseOrder(res.owner))
  }

  /** Freeing an object before dissolving it is the error the destructor's order avoids. */
  lemma ReleaseBeforeDissolveFails(ep: Entrypoint, h: Handle)
    requires h in ep.managed
    ensures ReleaseAll(ep, [h]) == Failure(ReleasedWhileManaged(h))
  {
  }

  /**
   * Constructing and destroying the bundle of a child whose objects the
   * entrypoint did not serve before leaves the entrypoint serving exactly
   * what it served before.
   */
  lemma ResourcesRoundTrip(owner: Ref, name: string, ep: Entrypoint, forked: bool)
    requires HandlesOf(owner) !! ep.managed
    ensures var (res, ep') := NewResources(owner, name, ep, forked);
      DestroyResources(res, ep').value.managed == ep.managed
  {
  }

  /** The kind of `e`'s object if `e` takes an object of `owner` through `step`. */
  function KindOf(e: Event, owner: Ref, step: Step): seq<Kind>
  {
    if e.step == step && e.h.owner == owner then [e.h.kind] else []
  }

  /** The kinds of `owner`'s objects that `log[i..]` takes through `step`, in order. */
  function KindsFrom(log: seq<Event>, i: int, owner: Ref, step: Step): (r: seq<Kind>)
    requires 0 <= i <= |log|
    ensures |r| <= |log| - i
    decreases |log| - i
  {
    if i == |log| then [] else KindOf(log[i], owner, step) + KindsFrom(log, i + 1, owner, step)
  }

  /** The kinds of `owner`'s objects that `log` takes through `step`, in order. */
  function KindsOf(log: seq<Event>, owner: Ref, step: Step): (r: seq<Kind>)
    ensures |r| <= |log|
  {
    KindsFrom(log, 0, owner, step)
  }

  lemma {:induction false} KindsFromShift(a: seq<Event>, b: seq<Event>, k: int, owner: Ref, step: Step)
    requires 0 <= k <= |b|
    ensures KindsFrom(a + b, |a| + k, owner, step) == KindsFrom(b, k, owner, step)
    decreases |b| - k
  {
    if k < |b| {
      assert (a + b)[|a| + k] == b[k];
      KindsFromShift(a, b, k + 1, owner, step);
    }
  }

  lemma {:induction false} KindsFromAppend(a: seq<Event>, b: seq<Event>, i: int, owner: Ref, step: Step)
    requires 0 <= i <= |a|
    ensures KindsFrom(a + b, i, owner, step) == KindsFrom(a, i, owner, step) + KindsFrom(b, 0, owner, step)
    decreases |a| - i
  {
    if i == |a| {
      KindsFromShift(a, b, 0, owner, step);
    } else {
      assert (a + b)[i] == a[i];
      KindsFromAppend(a, b, i + 1, owner, step);
    }
  }

  /** The kinds recorded in a concatenated log are those of the two parts, in order. */
  lemma KindsOfAppend(a: seq<Event>, b: seq<Event>, owner: Ref, step: Step)
    ensures KindsOf(a + b, owner, step) == KindsOf(a, owner, step) + KindsOf(b, owner, step)
  {
    KindsFromAppend(a, b, 0, owner, step);
  }

  lemma {:induction false} KindsFromOtherStep(hs: seq<Handle>, done: Step, i: int, owner: Ref, step: Step)
    requires 0 <= i <= |hs| && done != step
    ensures KindsFrom(Stamp(hs, done), i, owner, step) == []
    decreases |hs| - i
  {
    if i < |hs| {
      KindsFromOtherStep(hs, done, i + 1, owner, step);
    }
  }

  lemma {:induction false} KindsFromSameStep(hs: seq<Handle>, i: int, owner: Ref, step: Step)
    requires 0 <= i <= |hs|
    requires forall j :: 0 <= j < |hs| ==> hs[j].owner == owner
    ensures var r := KindsFrom(Stamp(hs, step), i, owner, step);
      |r| == |hs| - i && forall j :: 0 <= j < |r| ==> r[j] == hs[i + j].kind
    decreases |hs| - i
  {
    if i < |hs| {
      KindsFromSameStep(hs, i + 1, owner, step);
      var rest := KindsFrom(Stamp(hs, step), i + 1, owner, step);
      assert KindsFrom(Stamp(hs, step), i, owner, step) == [hs[i].kind] + rest;
    }
  }

  /**
   * Taking the objects `hs` of `owner` through one step records their kinds
   * in order under that step, and nothing under any other.
   */
  lemma KindsOfStamp(hs: seq<Handle>, done: Step, owner: Ref, step: Step)
    requires forall i :: 0 <= i < |hs| ==> hs[i].owner == owner
    ensures done != step ==> KindsOf(Stamp(hs, done), owner, step) == []
    ensures done == step ==> var r := KindsOf(Stamp(hs, done), owner, step);
      |r| == |hs| && forall j :: 0 <= j < |r| ==> r[j] == hs[j].kind
  {
    if done == step {
      KindsFromSameStep(hs, 0, owner, step);
    } else {
      KindsFromOtherStep(hs, done, 0, owner, step);
    }
  }

  /**
   * The kinds recorded in a log of five parts, when the second and the last
   * part record none, are those of the first part followed by `mid`, the
   * kinds of the middle two.
   */
  lemma KindsOfAppend5(log: seq<Event>, c: seq<Event>, m: seq<Event>, d: seq<Event>, f: seq<Event>,
                       owner: Ref, step: Step, mid: seq<Kind>)
    requires KindsOf(c, owner, step) == [] && KindsOf(f, owner, step) == []
    requires KindsOf(m, owner, step) + KindsOf(d, owner, step) == mid
    ensures KindsOf(log + c + m + d + f, owner, step) == KindsOf(log, owner, step) + mid
  {
    KindsOfAppend(log + c + m + d, f, owner, step);
    KindsOfAppend(log + c + m, d, owner, step);
    KindsOfAppend(log + c, m, owner, step);
    KindsOfAppend(log, c, owner, step);
  }

  /** Taking `owner`'s bundle through `done` in registration order records ram, rm, cpu under `done` alone. */
  lemma RegistrationKinds(owner: Ref, done: Step, step: Step)
    ensures KindsOf(Stamp(RegistrationOrder(owner), done), owner, step)
      == if done == step then [Ram, Rm, Cpu] else []
  {
    KindsOfStamp(RegistrationOrder(owner), done, owner, step);
  }

  /**
   * Construction, registration, dissolving and release of `owner`'s bundle
   * append ram, rm, cpu to the managed and to the dissolved kinds of a log.
   */
  lemma LifetimeKinds(log: seq<Event>, owner: Ref, step: Step)
    requires step == Manage || step == Dissolve
    ensures var c := Stamp(DeclarationOrder(owner), Construct);
      var m := Stamp(RegistrationOrder(owner), Manage);
      var d := Stamp(RegistrationOrder(owner), Dissolve);
      var f := Stamp(ReleaseOrder(owner), Release);
      KindsOf(log + c + m + d + f, owner, step) == KindsOf(log, owner, step) + [Ram, Rm, Cpu]
  {
    var c := Stamp(DeclarationOrder(owner), Construct);
    var m := Stamp(RegistrationOrder(owner), Manage);
    var d := Stamp(RegistrationOrder(owner), Dissolve);
    var f := Stamp(ReleaseOrder(owner), Release);
    KindsOfStamp(DeclarationOrder(owner), Construct, owner, step);
    RegistrationKinds(owner, Manage, step);
    RegistrationKinds(owner, Dissolve, step);
    KindsOfStamp(ReleaseOrder(owner), Release, owner, step);
    KindsOfAppend5(log, c, m, d, f, owner, step, [Ram, Rm, Cpu]);
  }

  /**
   * The destructor dissolves the objects in the order the constructor
   * registered them (ram, rm, cpu) — the same order, not the reverse.
   */
  lemma DissolveFollowsRegistrationOrder(owner: Ref, name: string, ep: Entrypoint, forked: bool)
    requires KindsOf(ep.log, owner, Manage) == [] && KindsOf(ep.log, owner, Dissolve) == []
    ensures var (res, ep') := NewResources(owner, name, ep, forked);
      var final := DestroyResources(res, ep').value;
      && KindsOf(final.log, owner, Manage) == [Ram, Rm, Cpu]
      && KindsOf(final.log, owner, Dissolve) == [Ram, Rm, Cpu]
  {
    LifetimeKinds(ep.log, owner, Manage);
    LifetimeKinds(ep.log, owner, Dissolve);
  }
}

=== FILE: sysio.dfy ===
/**
 * The size of the shared syscall buffer of a Noux child (the SYSIO_DS_SIZE
 * constant in noux/child.h): sizeof(Sysio) rounded up to whole pages with
 * the mask PAGE_MASK = ~(PAGE_SIZE - 1). The size of the Sysio structure is a
 * parameter, as its layout is not part of this model.
 */
module Sysio {

  const PAGE_SIZE: nat := 4096

  /** PAGE_SIZE is 2 to this power, so PAGE_MASK clears exactly this many low bits. */
  const PAGE_SHIFT: nat := 12

  function Pow2(k: nat): (r: nat)
    ensures r > 0
  {
    if k == 0 then 1 else 2 * Pow2(k - 1)
  }

  /** `x & ~(2^k - 1)` on a non-negative `x`: the bits from position `k` up. */
  function ClearLowBits(x: nat, k: nat): nat
  {
    if k == 0 then x else 2 * ClearLowBits(x / 2, k - 1)
  }

  /** `x >> k` on a non-negative `x`. */
  function ShiftRight(x: nat, k: nat): nat
  {
    if k == 0 then x else ShiftRight(x / 2, k - 1)
  }

  /** Clearing the `k` low bits leaves a multiple of 2^k. */
  lemma {:induction false} ClearLowBitsIsMultiple(x: nat, k: nat)
    ensures ClearLowBits(x, k) == Pow2(k) * ShiftRight(x, k)
  {
    if k > 0 {
      ClearLowBitsIsMultiple(x / 2, k - 1);
      var p, q := Pow2(k - 1), ShiftRight(x / 2, k - 1);
      assert ClearLowBits(x, k) == 2 * (p * q);
      assert 2 * (p * q) == (2 * p) * q;
    }
  }

  /** Clearing the `k` low bits rounds down by less than 2^k. */
  lemma {:induction false} ClearLowBitsRoundsDown(x: nat, k: nat)
    ensures ClearLowBits(x, k) <= x < ClearLowBits(x, k) + Pow2(k)
  {
    if k > 0 {
      ClearLowBitsRoundsDown(x / 2, k - 1);
    }
  }

  lemma PageSizeIsPowerOfShift()
    ensures Pow2(PAGE_SHIFT) == PAGE_SIZE
  {
    assert Pow2(4) == 16;
    assert Pow2(8) == 256;
  }

  /**
   * SYSIO_DS_SIZE = PAGE_MASK & (sizeof(Sysio) + PAGE_SIZE - 1): a whole
   * number of pages, large enough for the structure, and less than one page
   * larger than it.
   */
  function SysioDsSize(sizeofSysio: nat): (r: nat)
    ensures r % PAGE_SIZE == 0
    ensures sizeofSysio <= r < sizeofSysio + PAGE_SIZE
  {
    PageSizeIsPowerOfShift();
    ClearLowBitsIsMultiple(sizeofSysio + PAGE_SIZE - 1, PAGE_SHIFT);
    ClearLowBitsRoundsDown(sizeofSysio + PAGE_SIZE - 1, PAGE_SHIFT);
    ClearLowBits(sizeofSysio + PAGE_SIZE - 1, PAGE_SHIFT)
  }

  /** SYSIO_DS_SIZE is the least whole number of pages that holds the structure. */
  lemma SysioDsSizeIsLeast(sizeofSysio: nat, m: nat)
    requires m % PAGE_SIZE == 0 && m >= sizeofSysio
    ensures SysioDsSize(sizeofSysio) <= m
  {
    var r := SysioDsSize(sizeofSysio);
    assert r == PAGE_SIZE * (r / PAGE_SIZE);
    assert m == PAGE_SIZE * (m / PAGE_SIZE);
    assert r / PAGE_SIZE <= m / PAGE_SIZE;
  }
}

=== FILE: wrappers.dfy ===
/** Failure-carrying result types shared by the model. */
module Wrappers {

  /** A value that may be absent; stands in for a possibly-null pointer. */
  datatype Option<+T> = None | Some(value: T)

  /** Either a value or an error; stands in for a C++ exception path. */
  datatype Result<+R, +E> = Success(value: R) | Failure(error: E)
}
